=== FILE: README.md ===
# HeyGen avatar recorder — a Dafny model

This project models the core of a Python service that drives a HeyGen
streaming avatar and records what it says. The model is in Dafny and the
properties are proved. The core has four collaborating parts:

- **The remote session client** (`HeyGenSessionManager`). It holds one
  local session record: id, media-room URL, access token, duration limit,
  realtime endpoint and an active flag. It creates, starts, keeps alive,
  interrupts and closes the session over the vendor's HTTP API. It decodes
  the vendor's several session-list envelopes and sweeps remote sessions
  by id.
- **The media-room client** (`HeyGenLiveKitClient`). It runs a recording
  window over the avatar's media room. While the window is open, incoming
  video frames (converted RGB→BGR) and audio frames are appended to two
  buffers. When the window closes, they are exported. The video-only
  file is written at 30 fps. The audio becomes a WAV file of all samples
  in capture order. ffmpeg merges the two, and the client falls back to
  the video-only file whenever a step fails. The buffers are cleared on
  every path.
- **The task orchestrator** (`HeyGenFrameProcessor`). It runs one text
  task at a time, guarded by `is_processing`. It joins the room lazily,
  opens a recording window, dispatches the text and waits for the
  announced duration plus two seconds. It then closes the window and
  accepts the file only above 1024 bytes. It also has a fixed-order
  interrupt.
- **The legacy stream recorder** (`StreamRecorder`,
  `WebSocketStreamHandler`, `HeyGenStreamManager`). This is a
  start/add/stop recorder over one video writer, driven by a simulated
  three-second recording.

Files: `optional.dfy` (Option), `json.dfy` (JSON values and Python
truthiness), `media.dfy` (pixels, images, samples), `paths.dfy`
(`os.path.join`), `urlencode.dfy` (`quote_plus`, `urlparse().hostname`,
`str.split`), `sessions.dfy`, `livekit.dfy`, `stream_recorder.dfy`,
`processor.dfy`.

Modelling conventions:

- **HTTP.** A call is replaced by the reply it receives: a `Response`
  with a status and a body, where `None` is a body that does not parse.
  For the sweep and the result lookup, a reply function stands in. The
  methods that post to the vendor return the requests they sent, so "no
  request" is `sent == []`. `CreateSession` returns its one request. The
  result lookups return the endpoints they tried.
- **Exceptions.** An exception that escapes a method is the `Raised`
  outcome.
- **Outside effects.** Room handshakes, file writers, ffmpeg and clocks
  appear as parameters: `roomOk`, `ExportEnv`, a `sizes` map of the files
  on disk, and timestamps.
- **Python semantics.** Truthiness, `dict.get` on a non-dict, `x or y`
  and `os.path.join` are written out.
- **Suspension point.** `process_text_task` is split at its one wait into
  `BeginTextTask` and `FinishTextTask`, so an interrupt can be run in
  between, as the event loop allows. The frames the room's tracks deliver
  during the wait are given as timed arrivals, and the per-track stream
  loops feed them to the open window.

Where the documented behaviour and the code differ, the model follows the
code:

- **Interrupt order.** The interrupt calls the vendor first, then closes
  the recording window, then stops the stream recording. A "stop first"
  order is not what the code does.
- **Session creation does not sweep.** The sweep-then-create-then-close
  sequence belongs to the console, not to the session client.

## Model

| member | source | states |
|---|---|---|
| Json.NatToString | pipecat_integration/heygen_processor.py:83 | `str(n)` of a whole number: decimal digits, no leading zero |
| Json.NatToStringRoundTrip | pipecat_integration/heygen_processor.py:83 | the printed digits read back as the number |
| Json.NatToStringInjective | pipecat_integration/heygen_processor.py:83 | different numbers print differently |
| Sessions.DecodeSessionList | heygen/session_manager.py:49-84 | non-200 or unparseable reply gives `[]`; a top-level list is returned; other non-dicts give `[]`; in a dict, `data.sessions` wins, then a list under `data`, then `data` unchanged, and no `data` gives `[]` |
| Sessions.DecodeUnwrapsEveryEnvelope | heygen/session_manager.py:61-72 | each of the three envelopes decodes to the list it wraps |
| Sessions.DecodeKeepsUnrecognisedData | heygen/session_manager.py:62-70 | a dict without `sessions`, or a scalar, under `data` comes back unchanged instead of `[]` |
| Sessions.SessionIds | heygen/session_manager.py:92-101 | the ids the sweep stops, at most one per entry, all truthy |
| Sessions.SessionIdsAppend | heygen/session_manager.py:92-101 | the sweep over a concatenation is the concatenation of the sweeps |
| Sessions.SessionIdsComplete | heygen/session_manager.py:92-96 | every dict entry with a truthy `session_id` is stopped |
| Sessions.SessionIdsSound | heygen/session_manager.py:92-96 | every stopped id comes from a dict entry with that truthy `session_id` |
| Sessions.SweepTargets | heygen/session_manager.py:86-101 | only a list reply is swept; at most one id per entry, every one truthy |
| Sessions.StopRequests | heygen/session_manager.py:106-114 | one `streaming.stop` request per id, in order |
| Sessions.StopRequestsAppend | heygen/session_manager.py:106-114 | stop requests distribute over concatenation |
| Sessions.SweepStep | heygen/session_manager.py:92-114 | one more entry adds exactly that entry's id, and its stop request, after those already collected |
| Sessions.CreateBody | heygen/session_manager.py:126-139 | exactly the seven fields; quality and avatar fall back to the configured defaults when absent or empty; `v2`, `VP8`, no idle-timeout disable, 120 s idle timeout; given voice settings or `{"rate": 1.0}` |
| Sessions.DataOf | heygen/session_manager.py:150-151 | `data` of a dict reply, defaulting to `{}`; nothing for a non-dict reply or a non-dict `data` |
| Sessions.SessionData | heygen/session_manager.py:146-160 | the session fields are read exactly from a 200 dict reply whose `data` is a dict, and from that `data` |
| Sessions.TaskBody | heygen/session_manager.py:210-215 | exactly session id, text, task type and task mode |
| Sessions.TaskResultUrls | heygen/session_manager.py:237-243 | the five result endpoints |
| Sessions.PickVideoUrl | heygen/session_manager.py:270 | `video_url`, else `url`, else `result_url`; truthy iff one of them is |
| Sessions.FoundResult | heygen/session_manager.py:262-269 | a lookup that raises makes the download raise; a found `data` dict comes from a truthy result found by the lookup |
| Sessions.SessionManager.constructor | heygen/session_manager.py:13-21 | empty record, not active |
| Sessions.SessionManager.CloseAllActiveSessions | heygen/session_manager.py:86-114 | one list request, then one stop request per dict entry with a truthy id, in list order; a failing stop does not end the sweep; the local record is untouched |
| Sessions.SessionManager.StopEach | heygen/session_manager.py:92-101 | the loop sends exactly the stop requests of the entries' ids, in order |
| Sessions.SessionManager.CreateSession | heygen/session_manager.py:116-176 | sends the create body; true iff the reply is a 200 dict whose `data` has a truthy `session_id`; on a 200 dict all five fields are overwritten, even without an id; otherwise nothing changes; never sets active |
| Sessions.SessionManager.StartSession | heygen/session_manager.py:178-196 | no id: false, no request, no change; else one start request and active set only on 200 |
| Sessions.SessionManager.SendTask | heygen/session_manager.py:198-228 | no id: None without a request; else one task request; a 200 body is returned, a 200 without JSON raises, otherwise None |
| Sessions.SessionManager.GetTaskResult | heygen/session_manager.py:230-258 | no id: None, nothing tried; otherwise the result is the reference lookup over the five URLs (the first 200 decides, its body or a raise when it is not JSON); a prefix of the URLs is tried in order, every tried one but the last failed, and None means all five failed |
| Sessions.SessionManager.DownloadTaskVideo | heygen/session_manager.py:260-294 | no id: false, nothing tried or fetched; raises exactly when the lookup raises or its truthy result, or that result's `data`, is not a dict; fetches exactly the truthy URL `video_url`/`url`/`result_url` selects from that `data`; true iff a string URL was fetched with 200 and written |
| Sessions.SessionManager.InterruptTask | heygen/session_manager.py:296-312 | no id: false, no request; else one interrupt request, true iff 200 |
| Sessions.SessionManager.KeepAlive | heygen/session_manager.py:314-329 | no id: false, no request; else one keep-alive request, true iff 200 |
| Sessions.SessionManager.CloseSession | heygen/session_manager.py:331-347 | no id: true, no request, no change; on 200 the record is reset except the realtime endpoint; otherwise false and no change |
| Sessions.SessionManager.ResetSession | heygen/session_manager.py:349-355 | id, URL, token and limit cleared, not active, realtime endpoint kept |
| Sessions.SessionManager.Cleanup | heygen/session_manager.py:357-360 | an inactive session, or an active one without an id, is left as it was and nothing is sent; otherwise one stop request, and the record is reset on 200 and kept as it was otherwise |
| Sessions.SessionManager.CloseSessionTwice | heygen/session_manager.py:331-334 | after a successful close a second close succeeds without a request |
| Media.ToPixels | pipecat_integration/livekit_client.py:244-245 | the packed buffer grouped into pixels, three bytes each, in order |
| Media.ToPixelsRoundTrip | pipecat_integration/livekit_client.py:244-245 | reshaping loses nothing: the pixels flatten back to the buffer |
| Media.SwapChannels | pipecat_integration/livekit_client.py:248 | every pixel has its first and third channel exchanged |
| Media.SwapChannelsInvolution | pipecat_integration/livekit_client.py:248 | the RGB↔BGR swap is its own inverse |
| Media.FromRgb24 | pipecat_integration/livekit_client.py:234-248 | an image exactly when the frame has at least one pixel and the buffer has height×width×3 bytes (an empty image makes the colour conversion raise); the stored pixel i is the received one with channels reversed |
| Paths.Join | pipecat_integration/livekit_client.py:476-478 | `os.path.join`: an absolute name wins, otherwise one separator between directory and name; the path ends with the name |
| UrlEncoding.QuotePlusEncoded | pipecat_integration/livekit_client.py:51-62 | an encoded value holds only unreserved characters, `+` and `%`, so it cannot break out of its query parameter |
| UrlEncoding.QuotePlusKeepsUnreserved | pipecat_integration/livekit_client.py:51-62 | unreserved text passes through unchanged |
| UrlEncoding.Hostname | pipecat_integration/livekit_client.py:57-60 | the host, when present, is non-empty and holds no `/`, `?`, `#`, `@` or `:` |
| UrlEncoding.SplitJoinWith | pipecat_integration/livekit_client.py:62 | parts without the separator, joined with it, split back into the same parts |
| UrlEncoding.QueryPairFree | pipecat_integration/livekit_client.py:62 | a `key=value` pair whose key has no `&` has none at all, whatever the value |
| UrlEncoding.UrlEncodeReadsBack | pipecat_integration/livekit_client.py:51-62 | `urlencode` of any values splits back on `&` into one encoded `key=value` per parameter, in order; this and the two `QuotePlus` lemmas are the contract of `QuotePlus` and `UrlEncode` |
| LiveKit.ConcatSamplesAppend | pipecat_integration/livekit_client.py:426-434 | concatenation of frames distributes over appending frames |
| LiveKit.ConcatSamplesPlacesFrame | pipecat_integration/livekit_client.py:426-434 | each frame's samples appear unchanged right after those of the frames captured before it |
| LiveKit.ConcatSamples | pipecat_integration/livekit_client.py:426-434 | the samples are empty exactly when every captured frame is |
| LiveKit.WavOf | pipecat_integration/livekit_client.py:417-446 | rate from the first frame; channels from the first frame with `wave`, mono with scipy; exactly the concatenated samples, in capture order |
| LiveKit.Images | pipecat_integration/livekit_client.py:491-492 | the images of the buffered frames, in capture order |
| LiveKit.SameSize | pipecat_integration/livekit_client.py:488-492 | what a writer opened at one frame size keeps: no more frames than given, every one of that size |
| LiveKit.SameSizeUniform | pipecat_integration/livekit_client.py:488-492 | when every frame has the writer's size, all of them are written, in order |
| LiveKit.SameSizeKeepsFirst | pipecat_integration/livekit_client.py:481-492 | the frame that sized the writer is always written, first |
| LiveKit.CapturedVideoFrames | pipecat_integration/livekit_client.py:211-260 | the frames a recording window keeps from a video stream: at most one per arrival |
| LiveKit.CapturedVideoKeepsConvertible | pipecat_integration/livekit_client.py:229-260 | when every arrival converts, each is kept, in order, as its BGR image with its arrival time |
| LiveKit.CapturedAudioFrames | pipecat_integration/livekit_client.py:220-278 | every audio arrival is kept, in order, with its arrival time |
| LiveKit.BaseName | pipecat_integration/livekit_client.py:472-474 | `avatar_response_<stamp>`, followed by `_<task id>` exactly when a non-empty task id is set and by nothing otherwise |
| LiveKit.BaseNameDistinct | pipecat_integration/livekit_client.py:472-474 | clock texts of one format that differ give different names, whatever the task ids |
| LiveKit.PathsFor | pipecat_integration/livekit_client.py:472-478 | `outputs/avatar_response_<stamp>[_<task>]` plus `_video_only.mp4`, `.wav`, `.mp4`; the three paths are pairwise distinct |
| LiveKit.FfmpegArgv | pipecat_integration/livekit_client.py:325-334 | twelve words starting with `ffmpeg`; the inputs are exactly the video and the audio file, in that order, and the output comes last |
| LiveKit.Merge | pipecat_integration/livekit_client.py:312-351 | ffmpeg runs only when both inputs exist, with that command; success iff it ran and exited 0 |
| LiveKit.Export | pipecat_integration/livekit_client.py:464-545 | no file iff no video frames or the write failed; the video-only file is at 30 fps, sized by the first frame, and holds the frames of that size in order; audio written iff present and the write succeeds; merge tried iff audio saved and ffmpeg available; final path iff every step succeeded, else the video-only path; intermediates removed iff final |
| LiveKit.EventsQueryReadsBack | pipecat_integration/livekit_client.py:51-62 | whatever the id and token, the events query splits back into exactly `session_id=<id>`, `session_token=<token>` and `silence_response=false`, in that order, the flag unescaped |
| LiveKit.EventsUrl | pipecat_integration/livekit_client.py:51-62 | `wss://<host>/v1/ws/streaming.chat?` followed by a query that reads back as the id, the token and the fixed flag, in that order |
| LiveKit.LiveKitClient.constructor | pipecat_integration/livekit_client.py:31-45 | not connected, not recording, empty buffers |
| LiveKit.LiveKitClient.Connect | pipecat_integration/livekit_client.py:47-139 | true iff the room is joined; the events socket is dialled at the events URL iff joined with a session id and server URL; its failure does not fail the connect; the recording state is untouched |
| LiveKit.LiveKitClient.OnDisconnected | pipecat_integration/livekit_client.py:117-120 | the room's disconnect event clears `is_connected` |
| LiveKit.LiveKitClient.StartRecording | pipecat_integration/livekit_client.py:280-302 | not connected or already recording: None, nothing changes; otherwise the task id is set, recording on, buffers emptied, and the id returned |
| LiveKit.LiveKitClient.ProcessVideoFrame | pipecat_integration/livekit_client.py:229-260 | a frame is appended, converted to BGR, only while recording and only when it has pixels and its buffer fits its shape |
| LiveKit.LiveKitClient.ProcessAudioFrame | pipecat_integration/livekit_client.py:220-278 | a frame is appended only while recording |
| LiveKit.LiveKitClient.ProcessVideoStream | pipecat_integration/livekit_client.py:211-218 | while recording, the buffer grows by exactly the frames the stream keeps; otherwise it is untouched |
| LiveKit.LiveKitClient.ProcessAudioStream | pipecat_integration/livekit_client.py:220-227 | while recording, the buffer grows by every arriving audio frame, in order; otherwise it is untouched |
| LiveKit.LiveKitClient.SaveAudioToWav | pipecat_integration/livekit_client.py:410-456 | false for an empty buffer or a failed write; otherwise the WAV of all samples in capture order |
| LiveKit.LiveKitClient.WriteVideoOnly | pipecat_integration/livekit_client.py:480-495 | the video-only file at 30 fps, sized by the first frame, holding the buffered frames of that size in capture order |
| LiveKit.LiveKitClient.ExportBuffers | pipecat_integration/livekit_client.py:466-537 | the export of exactly the buffered video, audio and task id under the given outcomes |
| LiveKit.LiveKitClient.StopRecording | pipecat_integration/livekit_client.py:458-545 | not recording: None and nothing changes; otherwise the result is the export of the buffers, and recording is off, the buffers empty and the task id cleared on every path |
| LiveKit.LiveKitClient.SendMessage | pipecat_integration/livekit_client.py:547-561 | true iff connected to a room |
| LiveKit.LiveKitClient.Disconnect | pipecat_integration/livekit_client.py:563-584 | an open recording is exported first; then not connected, no room, no events socket |
| LiveKit.LiveKitClient.Stats | pipecat_integration/livekit_client.py:586-594 | the flags, task id and buffer sizes; nothing counted outside a window; the duration is the time since a truthy start time, otherwise zero |
| StreamRecording.SimulatedFrame | pipecat_integration/stream_recorder.py:133-142 | a 720×480 card captioned with the frame number |
| StreamRecording.SimulatedFramesDistinct | pipecat_integration/stream_recorder.py:135-142 | no two simulated frames carry the same caption |
| StreamRecording.StreamRecorder.constructor | pipecat_integration/stream_recorder.py:15-22 | the given directory or `outputs`; not recording |
| StreamRecording.StreamRecorder.GenerateFilename | pipecat_integration/stream_recorder.py:24-28 | `<dir>/<prefix>_<stamp>.mp4` |
| StreamRecording.StreamRecorder.GenerateFilenameInjective | pipecat_integration/stream_recorder.py:24-28 | different clock texts give different files |
| StreamRecording.StreamRecorder.StartRecording | pipecat_integration/stream_recorder.py:30-54 | a running recording is stopped first; a new writer for a new file; recording, and the name returned, iff the writer opened |
| StreamRecording.StreamRecorder.AddFrame | pipecat_integration/stream_recorder.py:56-59 | the frame is handed to the writer only while recording with a writer, and encoded only when it has the writer's size |
| StreamRecording.StreamRecorder.StopRecording | pipecat_integration/stream_recorder.py:61-74 | not recording: None, no change; otherwise stops, releases and clears the writer, returns the name start produced |
| StreamRecording.StreamRecorder.Cleanup | pipecat_integration/stream_recorder.py:76-79 | stops a running recording |
| StreamRecording.StreamHandler.constructor | pipecat_integration/stream_recorder.py:84-89 | a fresh recorder in `outputs`, not connected |
| StreamRecording.StreamHandler.Connect | pipecat_integration/stream_recorder.py:91-108 | the emulated connection always succeeds |
| StreamRecording.StreamHandler.StartRecordingSession | pipecat_integration/stream_recorder.py:110-126 | not connected: None, recorder untouched; otherwise the recorder's result; when it opened, all 90 simulated frames were written in order |
| StreamRecording.StreamHandler.SimulateRecording | pipecat_integration/stream_recorder.py:128-148 | exactly 3 s × 30 fps frames, the i-th numbered i+1 |
| StreamRecording.StreamHandler.StopRecordingSession | pipecat_integration/stream_recorder.py:150-158 | the recorder's stop result |
| StreamRecording.StreamHandler.Disconnect | pipecat_integration/stream_recorder.py:160-171 | not connected, recording stopped |
| StreamRecording.StreamManager.constructor | pipecat_integration/stream_recorder.py:176-179 | no handler, no current recording |
| StreamRecording.StreamManager.InitializeStream | pipecat_integration/stream_recorder.py:181-192 | false iff the session lacks a URL or token; otherwise a connected handler for them |
| StreamRecording.StreamManager.StartTaskRecording | pipecat_integration/stream_recorder.py:194-201 | no handler: None; otherwise the handler's result becomes the current recording: the session's file when it is connected and the writer opens, None when it is not connected or the writer does not open |
| StreamRecording.StreamManager.StopTaskRecording | pipecat_integration/stream_recorder.py:203-210 | no handler: None, no change; otherwise the stop result and the current recording cleared |
| StreamRecording.StreamManager.Cleanup | pipecat_integration/stream_recorder.py:212-216 | the handler is disconnected and dropped |
| Orchestration.WaitMs | pipecat_integration/heygen_processor.py:98-105 | duration + 2000 ms for a number (booleans count as 0/1); raises for anything else |
| Orchestration.ReadDispatch | pipecat_integration/heygen_processor.py:96-103 | read from the reply's `data` dict: fails exactly when there is no such dict or the duration is not a number; the vendor's id, else the local one; the duration, else 5000 ms, plus 2000 ms |
| Orchestration.ReadDispatchAnnounced | pipecat_integration/heygen_processor.py:96-103 | the vendor's task id wins and the wait is the announced duration plus 2000 ms |
| Orchestration.ReadDispatchDefaults | pipecat_integration/heygen_processor.py:96-98 | without announcements the local id is kept and the wait is 7000 ms |
| Orchestration.ReadDispatchRejectsNonDicts | pipecat_integration/heygen_processor.py:96-97 | a reply or `data` that is not a dict raises |
| Orchestration.LocalTaskId | pipecat_integration/heygen_processor.py:83 | `task_<seconds>` |
| Orchestration.LocalTaskIdInjective | pipecat_integration/heygen_processor.py:83 | ids taken at different seconds differ |
| Orchestration.AcceptVideo | pipecat_integration/heygen_processor.py:110-120 | a path is accepted iff the file exists with more than 1024 bytes |
| Orchestration.FrameProcessor.constructor | pipecat_integration/heygen_processor.py:22-29 | a fresh media-room client and stream manager for the same session; idle |
| Orchestration.FrameProcessor.Initialize | pipecat_integration/heygen_processor.py:31-42 | true iff the session has a URL and token |
| Orchestration.FrameProcessor.EndTask | pipecat_integration/heygen_processor.py:128-130 | the guard is released and the task id cleared |
| Orchestration.FrameProcessor.JoinRoom | pipecat_integration/heygen_processor.py:64-80 | joined iff already connected or the session has a URL and token and the room accepts; an existing connection is reused and nothing is dialled without URL or token; the recording state is untouched |
| Orchestration.FrameProcessor.CloseWindow | pipecat_integration/heygen_processor.py:124-126 | an open window yields its export; afterwards no window is open, the buffers are empty and the connection is untouched |
| Orchestration.FrameProcessor.DispatchTask | pipecat_integration/heygen_processor.py:89-105 | sends the task request iff the session has an id; waits iff the reply is a truthy 200 body from which a task id and wait can be read, with that id and wait and the window still open; otherwise the window is closed and the guard released |
| Orchestration.FrameProcessor.AwaitDispatch | pipecat_integration/heygen_processor.py:96-105 | waits exactly when the reply can be read, with its task id and wait and the window still open; otherwise the window is closed and the guard released |
| Orchestration.FrameProcessor.BeginTextTask | pipecat_integration/heygen_processor.py:44-105 | a task in flight: None, nothing changes; no URL or token when not connected: None, no room, no window, no request; a connection is reused; the task request is sent exactly when the window opened for a session with an id; it waits exactly when nothing stood in the way, with a fresh empty window under `task_<now>`, the vendor's task id and the announced wait; every other path releases the guard and closes a window it opened |
| Orchestration.FrameProcessor.Abandon | pipecat_integration/heygen_processor.py:91-130 | a falsy dispatch reply, like the exception path, closes an open window and releases the guard |
| Orchestration.FrameProcessor.FinishTextTask | pipecat_integration/heygen_processor.py:107-130 | the window's export is accepted iff it exists with more than 1024 bytes; the guard is released and the buffers emptied |
| Orchestration.FrameProcessor.ProcessTextTask | pipecat_integration/heygen_processor.py:44-130 | refused while in flight; otherwise ends with the guard released and a window it opened closed again; the task request is sent exactly when the window opened for a session; when nothing stood in the way, the result is the export of exactly the frames delivered during the wait, under `task_<now>`, accepted above 1024 bytes; otherwise None |
| Orchestration.FrameProcessor.ReceiveDuringWait | pipecat_integration/heygen_processor.py:102-105 | the frames delivered during the wait go to an open window, as the stream loops keep them |
| Orchestration.FrameProcessor.InterruptCurrentTask | pipecat_integration/heygen_processor.py:132-155 | idle: true, and nothing in the processor, the room client or the stream manager changes; otherwise as InterruptRunningTask |
| Orchestration.FrameProcessor.InterruptRunningTask | pipecat_integration/heygen_processor.py:138-155 | in order: the interrupt request (sent iff the session has an id, true iff 200), the window's export, then the stream recorder stopped with its running file returned; task state cleared; returns the interrupt's result |
| Orchestration.FrameProcessor.CloseRecordings | pipecat_integration/heygen_processor.py:143-147 | the window's export, then the stream manager's recorder stopped and its running file returned, keeping its handler |
| Orchestration.FrameProcessor.StopStreamRecording | pipecat_integration/heygen_processor.py:146-147 | the handler's recorder stops and the file of its running recording is returned; the handler is kept and its current recording cleared |
| Orchestration.FrameProcessor.GetStatus | pipecat_integration/heygen_processor.py:180-185 | processing, naming the current task id, iff a task is in flight |
| Orchestration.FrameProcessor.GetProcessingStatus | pipecat_integration/heygen_processor.py:187-194 | the guard, the task id, and the session's active flag and id |
| Orchestration.FrameProcessor.Cleanup | pipecat_integration/heygen_processor.py:196-210 | a task in flight is interrupted first: the interrupt request (iff the session has an id), the window's export, the stream recorder's running file; then the room is left and the stream handler dropped |

## Left out

- The API key, the request headers and the `ValueError` for a missing key (heygen/session_manager.py:13-33) carry no behaviour beyond configuration.
- `get_available_avatars` is outside the modelled core.
- Transport exceptions (connection errors, timeouts) from the HTTP client, the room, the events socket and ffmpeg are not modelled. Only the outcomes the code branches on are modelled.
- The events-socket handler loop (pipecat_integration/livekit_client.py:77-98) only logs.
- The track handlers (pipecat_integration/livekit_client.py:183-209) only start the stream loops. Frames that arrive between the window opening and the dispatch reply are not modelled; the model feeds frames only during the wait.
- Unreachable code after a `return`: the second connect body (pipecat_integration/livekit_client.py:141-181) and the duplicated audio-save body (pipecat_integration/livekit_client.py:363-408).
- pipecat_integration/webrtc_client.py, the console, the voice scripts, the benchmarks, utils/video_audio_merge.py and the environment loading in heygen/config.py are not part of this model. Config defaults appear as constants.
- `PipecatHeyGenBridge` and the processor's empty `process_audio_frame`/`process_video_frame` hooks have no behaviour.
- Wall-clock values, `asyncio.sleep` and concurrency: timestamps are parameters. The wait is returned rather than slept. An interrupt during the wait is modelled by calling `InterruptCurrentTask` between `BeginTextTask` and `FinishTextTask`.
- Orchestration.WaitMs: JSON numbers are exact reals, so the wait is a real number of milliseconds. Python's int/float distinction is not kept.
- Orchestration.FrameProcessor.BeginTextTask: a session id, URL or token that is truthy but not a string is passed to the room without its `str()` rendering. The model passes no session id, so it does not dial the events socket, and it passes an empty token.
- Orchestration.FrameProcessor.GetStatus: returns which of the two status messages applies and the task id it names, not the message text.
- UrlEncoding.Hostname: IPv6 literals in brackets (with a `%zone`), non-ASCII lowercasing, and the whitespace and control-character handling of `urlparse` are not modelled. Only the configured base URL reaches it.
- LiveKit.LiveKitClient.ProcessVideoFrame: the frame is given already converted to RGB24; the colour conversion of the media SDK is not modelled.
- LiveKit.Export: encoding the container (mp4v) and AAC is not modelled, nor is any rounding of frame sizes by the encoder; a frame of another size than the first is skipped, as the writer does. The files are values that record what was written. File removal is assumed to succeed.
- LiveKit.LiveKitClient.Disconnect: an exception while closing the socket or leaving the room, which the code logs and which skips the remaining steps, is not modelled.
- Sub-second timestamps: the local task id and the recording start use whole seconds.
- StreamRecording.StreamRecorder.constructor: creating the output directory (`os.makedirs`) is not modelled.
- StreamRecording: the frame drawing (`cv2.putText`) is represented by the caption text. The file-size log line of `stop_recording_session` is not modelled.

=== FILE: json.dfy ===
/**
 * JSON values as the vendor API returns them, with the parts of Python's
 * semantics the client relies on: truthiness (`if x:`, `x or y`) and
 * `dict.get(key, default)`, which raises when the receiver is not a dict.
 */
module Json {
  import opened Optional

  /** A decoded JSON document. Numbers are exact reals: Python's split into
      `int` and `float` is not kept. */
  datatype Json =
    | JNull
    | JBool(b: bool)
    | JNum(n: real)
    | JStr(s: string)
    | JList(items: seq<Json>)
    | JObj(fields: map<string, Json>)

  /** Python's truth value of the decoded object. */
  predicate Truthy(j: Json) {
    match j
    case JNull => false
    case JBool(b) => b
    case JNum(n) => n != 0.0
    case JStr(s) => s != []
    case JList(xs) => xs != []
    case JObj(m) => m != map[]
  }

  /** `obj.get(key, default)`: `None` stands for the AttributeError raised
      when `obj` is not a dict. */
  function Get(obj: Json, key: string, default: Json): Option<Json> {
    match obj
    case JObj(m) => Some(if key in m then m[key] else default)
    case _ => None
  }

  /** `obj.get(key)` on a dict: a missing key reads as None. */
  function Field(m: map<string, Json>, key: string): Json {
    if key in m then m[key] else JNull
  }

  /** The text of a JSON string, `None` for any other value. */
  function AsText(j: Json): Option<string> {
    if j.JStr? then Some(j.s) else None
  }

  /** Decimal digits of a natural number, as `str(n)` prints it. */
  function NatToString(n: nat): (s: string)
    ensures |s| >= 1
    ensures forall i :: 0 <= i < |s| ==> '0' <= s[i] <= '9'
    ensures |s| > 1 ==> s[0] != '0'
    decreases n
  {
    if n < 10 then [Digit(n)] else NatToString(n / 10) + [Digit(n % 10)]
  }

  function Digit(d: nat): (c: char)
    requires d < 10
    ensures '0' <= c <= '9'
  {
    ['0', '1', '2', '3', '4', '5', '6', '7', '8', '9'][d]
  }

  /** Reads a string of decimal digits back as a number. */
  function DigitsValue(s: string): nat
    requires forall i :: 0 <= i < |s| ==> '0' <= s[i] <= '9'
  {
    if s == [] then 0 else 10 * DigitsValue(s[..|s| - 1]) + (s[|s| - 1] as int - '0' as int)
  }

  /** `str(n)` loses nothing: its digits read back as `n`. */
  lemma {:induction false} NatToStringRoundTrip(n: nat)
    ensures DigitsValue(NatToString(n)) == n
    decreases n
  {
    var s := NatToString(n);
    if n < 10 {
      assert s[..|s| - 1] == [];
    } else {
      NatToStringRoundTrip(n / 10);
      assert s[..|s| - 1] == NatToString(n / 10);
    }
  }

  /** Distinct numbers print differently, so ids built from them differ. */
  lemma NatToStringInjective(m: nat, n: nat)
    requires NatToString(m) == NatToString(n)
    ensures m == n
  {
    NatToStringRoundTrip(m);
    NatToStringRoundTrip(n);
  }
}

=== FILE: livekit.dfy ===
/**
 * The LiveKit client: the recording window over the avatar's media room,
 * the capture buffers the per-track loops fill while the window is open,
 * and the export that runs when the window closes (video-only file, WAV
 * file, ffmpeg merge, falling back to video only).
 *
 * The room handshake, the events socket, the container writers, ffmpeg and
 * the clock are not run: their outcomes arrive as parameters (`roomOk`,
 * `ExportEnv`, timestamps), and the files written are returned as values.
 */
module LiveKit {
  import opened Optional
  import opened Media
  import opened Paths
  import opened UrlEncoding

  const OUTPUT_DIRECTORY: string := "outputs"
  /** The frame rate the video-only file is written at (not measured). */
  const EXPORT_FPS: nat := 30

  /** A video frame as received, already converted to packed RGB24. */
  datatype RawVideoFrame = RawVideoFrame(width: nat, height: nat, rgb: seq<byte>)
  /** A buffered video frame: BGR image and capture time. */
  datatype CapturedVideo = CapturedVideo(image: Image, timestamp: real)
  /** An audio frame as received: interleaved 16-bit samples. */
  datatype AudioFrame = AudioFrame(samples: seq<int16>, sampleRate: nat, channels: nat)
  datatype CapturedAudio = CapturedAudio(frame: AudioFrame, timestamp: real)

  /** A frame a track delivers, and when it arrives. */
  datatype VideoArrival = VideoArrival(frame: RawVideoFrame, at: real)
  datatype AudioArrival = AudioArrival(frame: AudioFrame, at: real)

  /** What a container writer leaves on disk. */
  datatype VideoFile = VideoFile(path: string, fps: nat, width: nat, height: nat, frames: seq<Image>)
  datatype WavFile = WavFile(path: string, sampleRate: nat, channels: nat, samples: seq<int16>)

  // ---------------------------------------------------------------------------
  // Audio concatenation

  /** All samples of the buffered audio frames, in capture order. */
  function ConcatSamples(frames: seq<CapturedAudio>): (samples: seq<int16>)
    // the WAV is empty exactly when every captured frame is
    ensures samples == [] <==> forall k :: 0 <= k < |frames| ==> frames[k].frame.samples == []
  {
    if frames == [] then [] else frames[0].frame.samples + ConcatSamples(frames[1..])
  }

  lemma {:induction false} ConcatSamplesAppend(xs: seq<CapturedAudio>, ys: seq<CapturedAudio>)
    ensures ConcatSamples(xs + ys) == ConcatSamples(xs) + ConcatSamples(ys)
    decreases |xs|
  {
    if xs == [] {
      assert xs + ys == ys;
    } else {
      assert (xs + ys)[0] == xs[0];
      assert (xs + ys)[1..] == xs[1..] + ys;
      ConcatSamplesAppend(xs[1..], ys);
    }
  }

  /** Capture order is kept: frame `k`'s samples sit, unchanged, right after
      the samples of the frames before it. */
  lemma ConcatSamplesPlacesFrame(frames: seq<CapturedAudio>, k: nat)
    requires k < |frames|
    ensures var before := |ConcatSamples(frames[..k])|;
      && before + |frames[k].frame.samples| <= |ConcatSamples(frames)|
      && ConcatSamples(frames)[before..before + |frames[k].frame.samples|] == frames[k].frame.samples
  {
    assert frames == frames[..k] + ([frames[k]] + frames[k + 1..]);
    ConcatSamplesAppend(frames[..k], [frames[k]] + frames[k + 1..]);
    ConcatSamplesAppend([frames[k]], frames[k + 1..]);
    assert ConcatSamples([frames[k]]) == frames[k].frame.samples + ConcatSamples([]);
  }

  /** What `_save_audio_to_wav` writes for a non-empty buffer: rate from the
      first frame; channels from the first frame with the `wave` writer, but
      one channel with scipy's writer, which takes a flat array as mono. */
  function WavOf(audio: seq<CapturedAudio>, path: string, scipyAvailable: bool): (wav: WavFile)
    requires audio != []
    ensures wav.path == path && wav.sampleRate == audio[0].frame.sampleRate
    ensures wav.channels == if scipyAvailable then 1 else audio[0].frame.channels
    // every sample of the buffer, in capture order
    ensures wav.samples == ConcatSamples(audio)
  {
    WavFile(path, audio[0].frame.sampleRate, if scipyAvailable then 1 else audio[0].frame.channels,
            ConcatSamples(audio))
  }

  function Images(frames: seq<CapturedVideo>): (imgs: seq<Image>)
    ensures |imgs| == |frames| && forall i :: 0 <= i < |frames| ==> imgs[i] == frames[i].image
  {
    seq(|frames|, i requires 0 <= i < |frames| => frames[i].image)
  }

  /** The images a container writer opened at `width x height` keeps:
      OpenCV's writer skips, without an error, a frame of any other size. */
  function SameSize(frames: seq<CapturedVideo>, width: nat, height: nat): (imgs: seq<Image>)
    ensures |imgs| <= |frames|
    ensures forall k :: 0 <= k < |imgs| ==> imgs[k].width == width && imgs[k].height == height
    decreases |frames|
  {
    if frames == [] then []
    else
      var last := frames[|frames| - 1].image;
      SameSize(frames[..|frames| - 1], width, height) + (if last.width == width && last.height == height then [last] else [])
  }

  /** A window whose frames all have one size is written completely, in order. */
  lemma {:induction false} SameSizeUniform(frames: seq<CapturedVideo>, width: nat, height: nat)
    requires forall k :: 0 <= k < |frames| ==> frames[k].image.width == width && frames[k].image.height == height
    ensures SameSize(frames, width, height) == Images(frames)
    decreases |frames|
  {
    if frames != [] {
      var init := frames[..|frames| - 1];
      SameSizeUniform(init, width, height);
      assert Images(frames) == Images(init) + [frames[|frames| - 1].image];
    }
  }

  /** The frame that sized the file is always written, and written first. */
  lemma {:induction false} SameSizeKeepsFirst(frames: seq<CapturedVideo>)
    requires frames != []
    ensures var imgs := SameSize(frames, frames[0].image.width, frames[0].image.height);
      imgs != [] && imgs[0] == frames[0].image
    decreases |frames|
  {
    if |frames| > 1 {
      var init := frames[..|frames| - 1];
      assert init[0] == frames[0];
      SameSizeKeepsFirst(init);
    }
  }

  // ---------------------------------------------------------------------------
  // Per-track capture

  /** What the video buffer gains from frames delivered while the window is
      open: each frame converted to BGR, a frame that does not convert dropped. */
  function CapturedVideoFrames(arrivals: seq<VideoArrival>): (captured: seq<CapturedVideo>)
    ensures |captured| <= |arrivals|
    decreases |arrivals|
  {
    if arrivals == [] then []
    else
      var last := arrivals[|arrivals| - 1];
      var img := FromRgb24(last.frame.width, last.frame.height, last.frame.rgb);
      CapturedVideoFrames(arrivals[..|arrivals| - 1]) + (if img.Some? then [CapturedVideo(img.value, last.at)] else [])
  }

  /** When every delivered frame converts, each one is captured, in order,
      with its arrival time. */
  lemma {:induction false} CapturedVideoKeepsConvertible(arrivals: seq<VideoArrival>)
    requires forall k :: 0 <= k < |arrivals| ==>
      FromRgb24(arrivals[k].frame.width, arrivals[k].frame.height, arrivals[k].frame.rgb).Some?
    ensures |CapturedVideoFrames(arrivals)| == |arrivals|
    ensures forall k :: 0 <= k < |arrivals| ==> (CapturedVideoFrames(arrivals)[k] ==
      CapturedVideo(FromRgb24(arrivals[k].frame.width, arrivals[k].frame.height, arrivals[k].frame.rgb).value, arrivals[k].at))
    decreases |arrivals|
  {
    if arrivals != [] {
      CapturedVideoKeepsConvertible(arrivals[..|arrivals| - 1]);
    }
  }

  /** What the audio buffer gains from frames delivered while the window is
      open: every frame, in order, with its arrival time. */
  function CapturedAudioFrames(arrivals: seq<AudioArrival>): (captured: seq<CapturedAudio>)
    ensures |captured| == |arrivals|
    ensures forall k :: 0 <= k < |arrivals| ==> captured[k] == CapturedAudio(arrivals[k].frame, arrivals[k].at)
    decreases |arrivals|
  {
    if arrivals == [] then []
    else
      var last := arrivals[|arrivals| - 1];
      CapturedAudioFrames(arrivals[..|arrivals| - 1]) + [CapturedAudio(last.frame, last.at)]
  }

  // ---------------------------------------------------------------------------
  // File names

  /** `avatar_response_<timestamp>` plus `_<task id>` when a task id is set. */
  function BaseName(stamp: string, taskId: Option<string>): (name: string)
    ensures |name| >= 16 + |stamp| && name[..16] == "avatar_response_" && name[16..16 + |stamp|] == stamp
    // the task suffix appears exactly when a task id is set
    ensures |name| > 16 + |stamp| <==> taskId.Some? && taskId.value != ""
    // and that suffix is `_<task id>`
    ensures name[16 + |stamp|..] == if taskId.Some? && taskId.value != "" then "_" + taskId.value else ""
  {
    var name := "avatar_response_" + stamp + (if taskId.Some? && taskId.value != "" then "_" + taskId.value else "");
    assert name[..16 + |stamp|] == "avatar_response_" + stamp;
    name
  }

  /** Files named at different clock texts of one width never collide. */
  lemma BaseNameDistinct(stamp1: string, stamp2: string, taskId1: Option<string>, taskId2: Option<string>)
    requires |stamp1| == |stamp2| && stamp1 != stamp2
    ensures BaseName(stamp1, taskId1) != BaseName(stamp2, taskId2)
  {
    var n1, n2 := BaseName(stamp1, taskId1), BaseName(stamp2, taskId2);
    assert n1[16..16 + |stamp1|] == stamp1;
    assert n2[16..16 + |stamp2|] == stamp2;
  }

  datatype ExportPaths = ExportPaths(videoOnly: string, audio: string, final: string)

  /** The three files of one export, in the output directory. */
  function PathsFor(stamp: string, taskId: Option<string>): (p: ExportPaths)
    ensures var base := OUTPUT_DIRECTORY + "/" + BaseName(stamp, taskId);
      && p.videoOnly == base + "_video_only.mp4"
      && p.audio == base + ".wav"
      && p.final == base + ".mp4"
    // three different files, so removing the intermediates never removes the result
    ensures p.videoOnly != p.audio && p.videoOnly != p.final && p.audio != p.final
  {
    var base := BaseName(stamp, taskId);
    assert base[0] == 'a';
    JoinIntoOutputs(base, "_video_only.mp4");
    JoinIntoOutputs(base, ".wav");
    JoinIntoOutputs(base, ".mp4");
    SuffixesDiffer(OUTPUT_DIRECTORY + "/" + base);
    ExportPaths(Join(OUTPUT_DIRECTORY, base + "_video_only.mp4"),
                Join(OUTPUT_DIRECTORY, base + ".wav"),
                Join(OUTPUT_DIRECTORY, base + ".mp4"))
  }

  lemma JoinIntoOutputs(base: string, suffix: string)
    requires base != [] && base[0] != '/'
    ensures Join(OUTPUT_DIRECTORY, base + suffix) == OUTPUT_DIRECTORY + "/" + base + suffix
  {
    assert (base + suffix)[0] == base[0];
  }

  lemma SuffixesDiffer(base: string)
    ensures base + "_video_only.mp4" != base + ".wav"
    ensures base + "_video_only.mp4" != base + ".mp4"
    ensures base + ".wav" != base + ".mp4"
  {
    var v, a, f := base + "_video_only.mp4", base + ".wav", base + ".mp4";
    assert v[|v| - 1] == '4' && a[|a| - 1] == 'v' && f[|f| - 1] == '4';
  }

  // ---------------------------------------------------------------------------
  // ffmpeg merge

  function InputsOf(args: seq<string>): seq<string>
    decreases |args|
  {
    if |args| < 2 then []
    else if args[0] == "-i" then [args[1]] + InputsOf(args[2..])
    else InputsOf(args[1..])
  }

  lemma {:induction false} InputsOfNone(args: seq<string>)
    requires forall i :: 0 <= i < |args| - 1 ==> args[i] != "-i"
    ensures InputsOf(args) == []
    decreases |args|
  {
    if |args| >= 2 {
      InputsOfNone(args[1..]);
    }
  }

  /** Combine the two inputs, copy the video stream, encode audio as AAC,
      stop at the shorter stream, overwrite the output. Read back as ffmpeg
      reads it, the command names exactly the video and the audio file as
      inputs, in that order, and the output last. */
  function FfmpegArgv(video: string, audio: string, output: string): (args: seq<string>)
    ensures |args| == 12 && args[0] == "ffmpeg"
    ensures InputsOf(args) == [video, audio]
    ensures args[|args| - 1] == output
  {
    var args := ["ffmpeg", "-i", video, "-i", audio, "-c:v", "copy", "-c:a", "aac", "-shortest", "-y", output];
    var tail := args[5..];
    assert tail == ["-c:v", "copy", "-c:a", "aac", "-shortest", "-y", output];
    InputsOfNone(tail);
    assert args[1..][2..] == args[3..];
    assert args[3..][2..] == tail;
    calc {
      InputsOf(args);
      InputsOf(args[1..]);
      [video] + InputsOf(args[3..]);
      [video] + ([audio] + InputsOf(tail));
    }
    args
  }

  datatype MergeRun = MergeRun(ok: bool, argv: Option<seq<string>>)

  /** `_merge_video_audio_with_ffmpeg`: ffmpeg runs only when both inputs
      exist; the merge succeeds when it ran and exited with status 0. */
  function Merge(video: string, audio: string, output: string, existing: set<string>, exitOk: bool): (m: MergeRun)
    ensures m.argv.Some? <==> video in existing && audio in existing
    ensures m.argv.Some? ==> m.argv.value == FfmpegArgv(video, audio, output)
    ensures m.ok <==> video in existing && audio in existing && exitOk
  {
    if video !in existing || audio !in existing then MergeRun(false, None)
    else MergeRun(exitOk, Some(FfmpegArgv(video, audio, output)))
  }

  // ---------------------------------------------------------------------------
  // Export decision

  /** The outcomes the export depends on but the model does not compute. */
  datatype ExportEnv = ExportEnv(
    stamp: string,             // datetime.now() as %Y%m%d_%H%M%S
    writeRaises: bool,         // writing the video-only container raises
    videoFileCreated: bool,    // the video writer created its file
    scipyAvailable: bool,      // which WAV writer is used
    audioWriteOk: bool,        // the WAV write completes
    ffmpegAvailable: bool,     // `ffmpeg -version` exits 0
    ffmpegExitOk: bool)        // the merge command exits 0

  /** What one closed recording window produced. */
  datatype ExportReport = ExportReport(
    result: Option<string>,
    video: Option<VideoFile>,
    wav: Option<WavFile>,
    merge: Option<MergeRun>,
    removed: seq<string>)

  const NO_EXPORT: ExportReport := ExportReport(None, None, None, None, [])

  /** The export of a closed window with the given buffers and task id. */
  function Export(video: seq<CapturedVideo>, audio: seq<CapturedAudio>, taskId: Option<string>, env: ExportEnv)
    : (r: ExportReport)
    // no video frames, or a failed video write: no file at all
    ensures r.result.None? <==> video == [] || env.writeRaises
    ensures r.result.None? ==> r == NO_EXPORT
    // the video-only file is sized by the first frame, at 30 fps, and holds the
    // buffered frames of that size, in capture order
    ensures r.result.Some? ==> r.video == Some(VideoFile(PathsFor(env.stamp, taskId).videoOnly, EXPORT_FPS,
      video[0].image.width, video[0].image.height, SameSize(video, video[0].image.width, video[0].image.height)))
    // audio is written only when there is some and the write succeeds
    ensures r.result.Some? ==>
      r.wav == if audio != [] && env.audioWriteOk then Some(WavOf(audio, PathsFor(env.stamp, taskId).audio, env.scipyAvailable)) else None
    // ffmpeg is tried only when audio was saved and ffmpeg is available
    ensures r.merge.Some? <==> r.result.Some? && r.wav.Some? && env.ffmpegAvailable
    // the merged file is the result exactly when every step of the merge succeeded
    ensures r.result == Some(PathsFor(env.stamp, taskId).final) <==>
      video != [] && !env.writeRaises && audio != [] && env.audioWriteOk && env.ffmpegAvailable
      && env.videoFileCreated && env.ffmpegExitOk
    // every other outcome with a file is the video-only path
    ensures r.result.Some? && r.result != Some(PathsFor(env.stamp, taskId).final) ==>
      r.result == Some(PathsFor(env.stamp, taskId).videoOnly)
    // both intermediates are removed exactly when the merged file is the result
    ensures r.removed == if r.result == Some(PathsFor(env.stamp, taskId).final)
      then [PathsFor(env.stamp, taskId).videoOnly, PathsFor(env.stamp, taskId).audio] else []
  {
    if video == [] || env.writeRaises then NO_EXPORT
    else
      var paths := PathsFor(env.stamp, taskId);
      var w, h := video[0].image.width, video[0].image.height;
      var videoFile := VideoFile(paths.videoOnly, EXPORT_FPS, w, h, SameSize(video, w, h));
      var wav := if audio != [] && env.audioWriteOk then Some(WavOf(audio, paths.audio, env.scipyAvailable)) else None;
      if wav.Some? && env.ffmpegAvailable then
        var existing := (if env.videoFileCreated then {paths.videoOnly} else {}) + {paths.audio};
        var m := Merge(paths.videoOnly, paths.audio, paths.final, existing, env.ffmpegExitOk);
        if m.ok then ExportReport(Some(paths.final), Some(videoFile), wav, Some(m), [paths.videoOnly, paths.audio])
        else ExportReport(Some(paths.videoOnly), Some(videoFile), wav, Some(m), [])
      else ExportReport(Some(paths.videoOnly), Some(videoFile), wav, None, [])
  }

  // ---------------------------------------------------------------------------
  // Events channel URL

  /** The parameters of the events socket, in order. */
  function EventsParams(sessionId: string, token: string): seq<(string, string)> {
    [("session_id", sessionId), ("session_token", token), ("silence_response", "false")]
  }

  /** Everything before the query: `wss://<host of the control server>/v1/ws/streaming.chat?`. */
  function EventsPrefix(serverUrl: string): string {
    "wss://" + HostText(serverUrl) + "/v1/ws/streaming.chat?"
  }

  /** Whatever the id and token hold, the query reads back as exactly three
      parameters: the encoded id, the encoded token, and the flag as written. */
  lemma EventsQueryReadsBack(sessionId: string, token: string)
    ensures Split(UrlEncode(EventsParams(sessionId, token)), '&') ==
      [QueryPair("session_id", sessionId), QueryPair("session_token", token), QueryPair("silence_response", "false")]
    // the flag's value needs no escaping
    ensures QueryPair("silence_response", "false") == "silence_response" + "=" + "false"
  {
    var params := EventsParams(sessionId, token);
    assert Free(params[0].0, '&') && Free(params[1].0, '&') && Free(params[2].0, '&');
    UrlEncodeReadsBack(params);
    var pairs := seq(|params|, k requires 0 <= k < |params| => QueryPair(params[k].0, params[k].1));
    assert |pairs| == 3 && pairs[0] == QueryPair("session_id", sessionId);
    assert pairs[1] == QueryPair("session_token", token) && pairs[2] == QueryPair("silence_response", "false");
    QuotePlusKeepsUnreserved("false");
  }

  /** The events socket's URL: the prefix, then a query that splits back
      into the session id, the token and the silence flag. */
  function EventsUrl(sessionId: string, token: string, serverUrl: string): (url: string)
    ensures |EventsPrefix(serverUrl)| <= |url| && url[..|EventsPrefix(serverUrl)|] == EventsPrefix(serverUrl)
    ensures Split(url[|EventsPrefix(serverUrl)|..], '&') ==
      [QueryPair("session_id", sessionId), QueryPair("session_token", token), "silence_response" + "=" + "false"]
  {
    var prefix := EventsPrefix(serverUrl);
    var query := UrlEncode(EventsParams(sessionId, token));
    EventsQueryReadsBack(sessionId, token);
    assert (prefix + query)[|prefix|..] == query;
    prefix + query
  }

  // ---------------------------------------------------------------------------
  // The client

  /** `get_recording_stats()`. */
  datatype RecordingStats = RecordingStats(
    isRecording: bool, currentTaskId: Option<string>, videoFrames: nat, audioFrames: nat, duration: real)

  class LiveKitClient {
    var roomOpen: bool                   // `room` is set
    var eventsOpen: bool                 // the events socket is set
    var isConnected: bool
    var isRecording: bool
    var currentTaskId: Option<string>
    var videoFrames: seq<CapturedVideo>
    var audioFrames: seq<CapturedAudio>
    var recordingStartTime: Option<real>

    /** Outside a recording window the buffers are empty and no task is
        recorded: frames never outlive the window they were captured in. */
    ghost predicate Valid()
      reads this
    {
      !isRecording ==> videoFrames == [] && audioFrames == [] && currentTaskId == None
    }

    constructor ()
      ensures Valid() && !isConnected && !isRecording && !roomOpen && !eventsOpen
      ensures recordingStartTime == None
    {
      roomOpen, eventsOpen, isConnected, isRecording := false, false, false, false;
      currentTaskId, videoFrames, audioFrames, recordingStartTime := None, [], [], None;
    }

    /** Joins the room (`roomOk` is the handshake's outcome); when a session id
        and a server URL are given, also dials the events socket, whose
        failure is only logged. Returns whether the room was joined and the
        events URL dialled, if any. */
    method Connect(token: string, sessionId: Option<string>, serverUrl: Option<string>, roomOk: bool, eventsOk: bool)
      returns (ok: bool, dialled: Option<string>)
      requires Valid()
      modifies this
      ensures Valid() && ok == roomOk && roomOpen
      ensures isConnected == (roomOk || old(isConnected))
      ensures dialled.Some? <==> roomOk && sessionId.Some? && sessionId.value != "" && serverUrl.Some? && serverUrl.value != ""
      ensures dialled.Some? ==> dialled.value == EventsUrl(sessionId.value, token, serverUrl.value)
      ensures eventsOpen == (old(eventsOpen) || (dialled.Some? && eventsOk))
      ensures isRecording == old(isRecording) && currentTaskId == old(currentTaskId)
      ensures videoFrames == old(videoFrames) && audioFrames == old(audioFrames)
      ensures recordingStartTime == old(recordingStartTime)
    {
      roomOpen := true;
      if !roomOk {
        return false, None;
      }
      isConnected := true;
      dialled := None;
      if sessionId.Some? && sessionId.value != "" && serverUrl.Some? && serverUrl.value != "" {
        dialled := Some(EventsUrl(sessionId.value, token, serverUrl.value));
        if eventsOk {
          eventsOpen := true;
        }
      }
      ok := true;
    }

    /** The room's `disconnected` event. */
    method OnDisconnected()
      modifies this`isConnected
      ensures !isConnected
    {
      isConnected := false;
    }

    /** Opens the window for `taskId`: refused when not connected or already recording. */
    method StartRecording(taskId: string, now: real) returns (r: Option<string>)
      requires Valid()
      modifies this
      ensures Valid()
      ensures !old(isConnected) || old(isRecording) ==> r == None && unchanged(this)
      ensures old(isConnected) && !old(isRecording) ==>
        && r == Some(taskId) && isRecording && currentTaskId == Some(taskId)
        && videoFrames == [] && audioFrames == [] && recordingStartTime == Some(now)
        && isConnected && roomOpen == old(roomOpen) && eventsOpen == old(eventsOpen)
    {
      if !isConnected || isRecording {
        return None;
      }
      currentTaskId := Some(taskId);
      isRecording := true;
      recordingStartTime := Some(now);
      videoFrames := [];
      audioFrames := [];
      r := Some(taskId);
    }

    /** Buffers a received video frame, converted to BGR, only while the
        window is open; a frame whose buffer does not fit its shape is dropped. */
    method ProcessVideoFrame(frame: RawVideoFrame, now: real)
      requires Valid()
      modifies this`videoFrames
      ensures Valid()
      ensures var img := FromRgb24(frame.width, frame.height, frame.rgb);
        videoFrames == if old(isRecording) && img.Some?
          then old(videoFrames) + [CapturedVideo(img.value, now)] else old(videoFrames)
    {
      if isRecording {
        var img := FromRgb24(frame.width, frame.height, frame.rgb);
        if img.Some? {
          videoFrames := videoFrames + [CapturedVideo(img.value, now)];
        }
      }
    }

    /** Buffers a received audio frame only while the window is open. */
    method ProcessAudioFrame(frame: AudioFrame, now: real)
      requires Valid()
      modifies this`audioFrames
      ensures Valid()
      ensures audioFrames == if old(isRecording) then old(audioFrames) + [CapturedAudio(frame, now)] else old(audioFrames)
    {
      if isRecording {
        audioFrames := audioFrames + [CapturedAudio(frame, now)];
      }
    }

    /** `_process_video_stream`: each frame the track delivers goes through
        `ProcessVideoFrame`, and is kept only while the window is open. */
    method ProcessVideoStream(arrivals: seq<VideoArrival>)
      requires Valid()
      modifies this`videoFrames
      ensures Valid()
      ensures videoFrames == if isRecording then old(videoFrames) + CapturedVideoFrames(arrivals) else old(videoFrames)
    {
      var i := 0;
      while i < |arrivals|
        invariant 0 <= i <= |arrivals|
        invariant Valid()
        invariant videoFrames == if isRecording then old(videoFrames) + CapturedVideoFrames(arrivals[..i]) else old(videoFrames)
      {
        assert arrivals[..i + 1][..i] == arrivals[..i];
        ProcessVideoFrame(arrivals[i].frame, arrivals[i].at);
        i := i + 1;
      }
      assert arrivals[..i] == arrivals;
    }

    /** `_process_audio_stream`: each frame the track delivers goes through
        `ProcessAudioFrame`, and is kept only while the window is open. */
    method ProcessAudioStream(arrivals: seq<AudioArrival>)
      requires Valid()
      modifies this`audioFrames
      ensures Valid()
      ensures audioFrames == if isRecording then old(audioFrames) + CapturedAudioFrames(arrivals) else old(audioFrames)
    {
      var i := 0;
      while i < |arrivals|
        invariant 0 <= i <= |arrivals|
        invariant Valid()
        invariant audioFrames == if isRecording then old(audioFrames) + CapturedAudioFrames(arrivals[..i]) else old(audioFrames)
      {
        assert arrivals[..i + 1][..i] == arrivals[..i];
        ProcessAudioFrame(arrivals[i].frame, arrivals[i].at);
        i := i + 1;
      }
      assert arrivals[..i] == arrivals;
    }

    /** Writes the buffered audio to `path`: nothing for an empty buffer,
        otherwise every frame's samples concatenated in capture order. */
    method SaveAudioToWav(path: string, scipyAvailable: bool, writeOk: bool) returns (saved: bool, wav: Option<WavFile>)
      ensures saved <==> audioFrames != [] && writeOk
      ensures wav == if saved then Some(WavOf(audioFrames, path, scipyAvailable)) else None
    {
      if audioFrames == [] {
        return false, None;
      }
      var first := audioFrames[0].frame;
      var combined: seq<int16> := [];
      var i := 0;
      while i < |audioFrames|
        invariant 0 <= i <= |audioFrames|
        invariant combined == ConcatSamples(audioFrames[..i])
      {
        ConcatSamplesAppend(audioFrames[..i], [audioFrames[i]]);
        assert audioFrames[..i + 1] == audioFrames[..i] + [audioFrames[i]];
        combined := combined + audioFrames[i].frame.samples;
        i := i + 1;
      }
      assert audioFrames[..i] == audioFrames;
      if !writeOk {
        return false, None;
      }
      var channels := if scipyAvailable then 1 else first.channels;
      saved, wav := true, Some(WavFile(path, first.sampleRate, channels, combined));
    }

    /** Offers every buffered frame, in capture order, to a writer opened at
        the first frame's size, which keeps the frames of that size. */
    method WriteVideoOnly(path: string) returns (file: VideoFile)
      requires videoFrames != []
      ensures file == VideoFile(path, EXPORT_FPS, videoFrames[0].image.width, videoFrames[0].image.height,
        SameSize(videoFrames, videoFrames[0].image.width, videoFrames[0].image.height))
    {
      var first := videoFrames[0].image;
      var written: seq<Image> := [];
      var i := 0;
      while i < |videoFrames|
        invariant 0 <= i <= |videoFrames|
        invariant written == SameSize(videoFrames[..i], first.width, first.height)
      {
        assert videoFrames[..i + 1][..i] == videoFrames[..i];
        var img := videoFrames[i].image;
        if img.width == first.width && img.height == first.height {
          written := written + [img];
        }
        i := i + 1;
      }
      assert videoFrames[..i] == videoFrames;
      file := VideoFile(path, EXPORT_FPS, first.width, first.height, written);
    }

    /** The export of the current buffers: the body of the window's close. */
    method ExportBuffers(env: ExportEnv) returns (report: ExportReport)
      ensures report == Export(videoFrames, audioFrames, currentTaskId, env)
    {
      if videoFrames == [] || env.writeRaises {
        return NO_EXPORT;
      }
      var paths := PathsFor(env.stamp, currentTaskId);
      var videoFile := WriteVideoOnly(paths.videoOnly);
      var saved, wav := SaveAudioToWav(paths.audio, env.scipyAvailable, env.audioWriteOk);
      if saved && env.ffmpegAvailable {
        var existing := (if env.videoFileCreated then {paths.videoOnly} else {}) + {paths.audio};
        var m := Merge(paths.videoOnly, paths.audio, paths.final, existing, env.ffmpegExitOk);
        if m.ok {
          report := ExportReport(Some(paths.final), Some(videoFile), wav, Some(m), [paths.videoOnly, paths.audio]);
        } else {
          report := ExportReport(Some(paths.videoOnly), Some(videoFile), wav, Some(m), []);
        }
      } else {
        report := ExportReport(Some(paths.videoOnly), Some(videoFile), wav, None, []);
      }
    }

    /** Closes the window. Refused, changing nothing, when none is open;
        otherwise the window is marked closed before any export work, the
        export runs, and the buffers and task id are cleared on every path. */
    method StopRecording(env: ExportEnv) returns (r: Option<string>, report: ExportReport)
      requires Valid()
      modifies this
      ensures Valid()
      ensures !old(isRecording) ==> r == None && report == NO_EXPORT && unchanged(this)
      ensures old(isRecording) ==>
        && report == Export(old(videoFrames), old(audioFrames), old(currentTaskId), env)
        && r == report.result
        && !isRecording && videoFrames == [] && audioFrames == [] && currentTaskId == None
        && isConnected == old(isConnected) && roomOpen == old(roomOpen) && eventsOpen == old(eventsOpen)
        && recordingStartTime == old(recordingStartTime)
    {
      if !isRecording {
        return None, NO_EXPORT;
      }
      isRecording := false;
      report := ExportBuffers(env);
      r := report.result;
      // finally
      currentTaskId := None;
      videoFrames := [];
      audioFrames := [];
    }

    /** Messages travel over the vendor's HTTP API, not the room: this only
        reports whether a room is joined. */
    method SendMessage(message: string, taskId: Option<string>) returns (ok: bool)
      ensures ok <==> isConnected && roomOpen
    {
      ok := isConnected && roomOpen;
    }

    /** Stops an open recording first (exporting it), then closes the events
        socket and leaves the room. */
    method Disconnect(env: ExportEnv) returns (report: ExportReport)
      requires Valid()
      modifies this
      ensures Valid()
      ensures report == if old(isRecording)
        then Export(old(videoFrames), old(audioFrames), old(currentTaskId), env) else NO_EXPORT
      ensures !isConnected && !roomOpen && !eventsOpen && !isRecording
    {
      report := NO_EXPORT;
      if isRecording {
        var r;
        r, report := StopRecording(env);
      }
      eventsOpen := false;
      roomOpen := false;
      isConnected := false;
    }

    /** `get_recording_stats()` at time `now`. */
    function Stats(now: real): (s: RecordingStats)
      requires Valid()
      reads this
      ensures s.isRecording == isRecording && s.currentTaskId == currentTaskId
      ensures s.videoFrames == |videoFrames| && s.audioFrames == |audioFrames|
      // outside a window nothing is counted
      ensures !s.isRecording ==> s.videoFrames == 0 && s.audioFrames == 0 && s.currentTaskId == None
      // the time since a truthy start time, otherwise zero
      ensures recordingStartTime.Some? && recordingStartTime.value != 0.0 ==> s.duration == now - recordingStartTime.value
      ensures recordingStartTime.None? || recordingStartTime.value == 0.0 ==> s.duration == 0.0
    {
      var duration :=
        if recordingStartTime.Some? && recordingStartTime.value != 0.0 then now - recordingStartTime.value else 0.0;
      RecordingStats(isRecording, currentTaskId, |videoFrames|, |audioFrames|, duration)
    }
  }
}

=== FILE: media.dfy ===
/**
 * Decoded media as the capture buffer holds it: images of three-channel
 * pixels, and 16-bit audio samples.
 */
module Media {
  import opened Optional

  type byte = x: int | 0 <= x < 256
  type int16 = x: int | -32768 <= x < 32768

  /** One interleaved pixel; the meaning of the channels (RGB or BGR) is the
      layout of the buffer it came from. */
  datatype Pixel = Pixel(c0: byte, c1: byte, c2: byte)

  /** A `height x width x 3` array, held row-major: the pixel at row `y`,
      column `x` is `pixels[y * width + x]`. */
  datatype Image = Image(height: nat, width: nat, pixels: seq<Pixel>)

  /** Groups a packed RGB24 buffer into pixels, three bytes each, in order. */
  function ToPixels(data: seq<byte>): (ps: seq<Pixel>)
    requires |data| % 3 == 0
    ensures |ps| == |data| / 3
    ensures forall i :: 0 <= i < |ps| ==> ps[i] == Pixel(data[3 * i], data[3 * i + 1], data[3 * i + 2])
  {
    if data == [] then [] else [Pixel(data[0], data[1], data[2])] + ToPixels(data[3..])
  }

  /** Flattens pixels back into the packed buffer. */
  function FromPixels(ps: seq<Pixel>): (data: seq<byte>)
    ensures |data| == 3 * |ps|
  {
    if ps == [] then [] else [ps[0].c0, ps[0].c1, ps[0].c2] + FromPixels(ps[1..])
  }

  /** Reshaping loses nothing: the pixels flatten back to the buffer. */
  lemma {:induction false} ToPixelsRoundTrip(data: seq<byte>)
    requires |data| % 3 == 0
    ensures FromPixels(ToPixels(data)) == data
    decreases |data|
  {
    if data != [] {
      ToPixelsRoundTrip(data[3..]);
      assert ToPixels(data) == [Pixel(data[0], data[1], data[2])] + ToPixels(data[3..]);
      assert ToPixels(data)[1..] == ToPixels(data[3..]);
      assert data == [data[0], data[1], data[2]] + data[3..];
    }
  }

  /** The RGB->BGR conversion: first and third channel exchanged. */
  function SwapRB(p: Pixel): Pixel {
    Pixel(p.c2, p.c1, p.c0)
  }

  function SwapChannels(ps: seq<Pixel>): (qs: seq<Pixel>)
    ensures |qs| == |ps|
    ensures forall i :: 0 <= i < |ps| ==> qs[i] == SwapRB(ps[i])
  {
    if ps == [] then [] else [SwapRB(ps[0])] + SwapChannels(ps[1..])
  }

  /** The channel swap is its own inverse. */
  lemma {:induction false} SwapChannelsInvolution(ps: seq<Pixel>)
    ensures SwapChannels(SwapChannels(ps)) == ps
    decreases |ps|
  {
    if ps != [] {
      SwapChannelsInvolution(ps[1..]);
      assert SwapChannels(ps)[1..] == SwapChannels(ps[1..]);
    }
  }

  /** A received RGB24 frame reshaped to `height x width x 3` and converted
      to BGR. `None` where the conversion raises and the frame is dropped:
      numpy's `reshape` when the buffer's length does not fit the shape, and
      OpenCV's colour conversion when the image has no pixels. */
  function FromRgb24(width: nat, height: nat, rgb: seq<byte>): (img: Option<Image>)
    ensures img.Some? <==> height * width > 0 && |rgb| == height * width * 3
    ensures img.Some? ==>
      img.value.height == height && img.value.width == width && |img.value.pixels| == height * width
    // channel k of the stored pixel is channel 2-k of the received one
    ensures img.Some? ==> forall i :: 0 <= i < height * width ==>
      img.value.pixels[i] == Pixel(rgb[3 * i + 2], rgb[3 * i + 1], rgb[3 * i])
  {
    if height * width > 0 && |rgb| == height * width * 3 then Some(Image(height, width, SwapChannels(ToPixels(rgb)))) else None
  }
}

=== FILE: optional.dfy ===
/** The optional value, Python's `X | None`. */
module Optional {
  datatype Option<+T> = None | Some(value: T)
}

=== FILE: paths.dfy ===
/** File-system path text, as Python's `os.path.join` builds it on POSIX. */
module Paths {

  /** The reference definition of `os.path.join(dir, name)` for two
      components; the other modules build their paths with it. */
  function Join(dir: string, name: string): (path: string)
    // an absolute name discards the directory
    ensures |name| > 0 && name[0] == '/' ==> path == name
    // otherwise the name is appended, with one separator when one is missing
    ensures !(|name| > 0 && name[0] == '/') ==>
      path == dir + (if dir == "" || dir[|dir| - 1] == '/' then "" else "/") + name
    ensures path[|path| - |name|..] == name
  {
    if |name| > 0 && name[0] == '/' then name
    else if dir == "" || dir[|dir| - 1] == '/' then dir + name
    else dir + "/" + name
  }
}

=== FILE: processor.dfy ===
/**
 * The task orchestrator: one in-flight text task at a time, guarded by
 * `isProcessing`. A task connects the media room lazily, opens a recording
 * window, dispatches the text to the vendor, waits for the announced
 * duration plus a margin, closes the window and accepts the exported file
 * only when it is larger than 1024 bytes.
 *
 * The task is split at its one suspension point, the wait: `BeginTextTask`
 * runs up to it and `FinishTextTask` from it, so that an interrupt can run
 * in between, as it can in the source's event loop.
 */
module Orchestration {
  import opened Optional
  import opened Json
  import opened Sessions
  import opened LiveKit
  import StreamRecording

  /** Files of this size or smaller are treated as failed recordings. */
  const MIN_VIDEO_BYTES: int := 1024
  /** The wait added to the announced duration. */
  const WAIT_MARGIN_MS: real := 2000.0
  /** The duration assumed when the vendor announces none. */
  const DEFAULT_DURATION_MS: real := 5000.0

  /** Where a task stands after `BeginTextTask`. */
  datatype Step = Finished(result: Option<string>) | Waiting(waitMs: real)

  /** What the dispatch reply tells the orchestrator: the task id to record
      and how long to wait. */
  datatype Dispatch = Dispatch(taskId: Json, waitMs: real)

  /** `duration_ms / 1000 + 2.0` seconds, in milliseconds; `None` where the
      division raises (a value that is not a number; Python's booleans are
      numbers). */
  function WaitMs(duration: Json): (w: Option<real>)
    ensures duration.JNum? ==> w == Some(duration.n + WAIT_MARGIN_MS)
    ensures duration.JBool? ==> w == Some((if duration.b then 1.0 else 0.0) + WAIT_MARGIN_MS)
    ensures w.None? <==> !duration.JNum? && !duration.JBool?
  {
    match duration
    case JNum(n) => Some(n + WAIT_MARGIN_MS)
    case JBool(b) => Some((if b then 1.0 else 0.0) + WAIT_MARGIN_MS)
    case _ => None
  }

  /** Reads the dispatch reply: `data` (default `{}`), its `task_id`
      (default the local id) and `duration_ms` (default 5000). `None` where
      the source raises: a reply or `data` that is not a dict, or a duration
      that is not a number. */
  function ReadDispatch(reply: Json, localId: string): (d: Option<Dispatch>)
    // read against the reply's `data` dict, as the session manager reads it:
    // the id defaults to the local one, the duration to 5000 ms
    ensures var data := DataOf(reply);
      var duration := if data.Some? && "duration_ms" in data.value then data.value["duration_ms"] else JNum(DEFAULT_DURATION_MS);
      && (d.Some? <==> data.Some? && WaitMs(duration).Some?)
      && (d.Some? ==> d.value.waitMs == WaitMs(duration).value)
      && (d.Some? ==> d.value.taskId == if "task_id" in data.value then data.value["task_id"] else JStr(localId))
  {
    match Get(reply, "data", JObj(map[]))
    case None => None
    case Some(data) =>
      match Get(data, "task_id", JStr(localId))
      case None => None
      case Some(taskId) =>
        match Get(data, "duration_ms", JNum(DEFAULT_DURATION_MS))
        case None => None
        case Some(duration) =>
          match WaitMs(duration)
          case None => None
          case Some(w) => Some(Dispatch(taskId, w))
  }

  /** The vendor's task id wins over the local one, and the wait is the
      announced duration plus two seconds. */
  lemma ReadDispatchAnnounced(data: map<string, Json>, localId: string, taskId: Json, duration: real)
    requires "task_id" in data && data["task_id"] == taskId
    requires "duration_ms" in data && data["duration_ms"] == JNum(duration)
    ensures ReadDispatch(JObj(map["data" := JObj(data)]), localId) == Some(Dispatch(taskId, duration + 2000.0))
  {
  }

  /** Without announcements, the local id is recorded and the wait is seven seconds. */
  lemma ReadDispatchDefaults(reply: map<string, Json>, localId: string)
    requires "data" in reply ==> reply["data"] == JObj(map[])
    ensures ReadDispatch(JObj(reply), localId) == Some(Dispatch(JStr(localId), 7000.0))
  {
  }

  /** A reply that is not a dict, or whose `data` is not a dict, is an error. */
  lemma ReadDispatchRejectsNonDicts(reply: Json, localId: string)
    requires !reply.JObj? || ("data" in reply.fields && !reply.fields["data"].JObj?)
    ensures ReadDispatch(reply, localId) == None
  {
  }

  /** The dispatch succeeded and its reply can be read: a 200 with a truthy
      JSON body from which a task id and a wait can be read. */
  predicate Dispatched(reply: Response, localId: string) {
    && reply.status == 200 && reply.body.Some? && Truthy(reply.body.value)
    && ReadDispatch(reply.body.value, localId).Some?
  }

  /** The local task id, `task_<whole seconds>`. */
  function LocalTaskId(now: nat): (id: string)
    ensures |id| > 5 && id[..5] == "task_"
  {
    "task_" + NatToString(now)
  }

  /** Local ids taken at different seconds differ. */
  lemma LocalTaskIdInjective(m: nat, n: nat)
    requires LocalTaskId(m) == LocalTaskId(n)
    ensures m == n
  {
    assert LocalTaskId(m)[5..] == NatToString(m);
    assert LocalTaskId(n)[5..] == NatToString(n);
    NatToStringInjective(m, n);
  }

  /** The file is accepted only if it exists and holds more than 1024 bytes. */
  function AcceptVideo(path: Option<string>, sizes: map<string, int>): (r: Option<string>)
    ensures r.Some? <==> path.Some? && path.value in sizes && sizes[path.value] > MIN_VIDEO_BYTES
    ensures r.Some? ==> r == path
  {
    if path.Some? && path.value in sizes && sizes[path.value] > MIN_VIDEO_BYTES then path else None
  }

  /** One step of an interrupt, in the order they happen. */
  datatype Effect =
    | RemoteInterrupt(sent: seq<Request>, ok: bool)
    | RecordingStopped(result: Option<string>)
    | StreamStopped(result: Option<string>)

  /** The readable status: which of the two messages, and the task id it names. */
  datatype Status = Ready | Processing(taskId: Json)

  datatype ProcessingStatus = ProcessingStatus(isProcessing: bool, currentTaskId: Json, sessionActive: bool, sessionId: Json)

  class FrameProcessor {
    const session: SessionManager
    const livekit: LiveKitClient
    const streams: StreamRecording.StreamManager
    var isProcessing: bool
    var currentTaskId: Json
    var currentRecordingPath: Option<string>

    /** A task id is held only while a task is in flight; the stream
        manager works for the same session. */
    ghost predicate Valid()
      reads this, livekit, streams, streams.Repr
    {
      && livekit.Valid() && streams.Valid() && streams.session == session && livekit !in streams.Repr
      && (!isProcessing ==> currentTaskId == JNull)
    }

    /** Nothing stands between a new task and its dispatch: no task in
        flight, no window open, and a room that is joined or can be. */
    predicate CanStart(roomOk: bool)
      reads this, livekit, session
    {
      && !isProcessing && !livekit.isRecording
      && (livekit.isConnected || (Truthy(session.websocketUrl) && Truthy(session.accessToken) && roomOk))
    }

    /** A new task started at `now` gets as far as its wait: it is dispatched
        for a session and the reply can be read. */
    predicate Unobstructed(now: nat, roomOk: bool, reply: Response)
      reads this, livekit, session
    {
      CanStart(roomOk) && Truthy(session.sessionId) && Dispatched(reply, LocalTaskId(now))
    }

    constructor (session: SessionManager)
      ensures Valid() && fresh(livekit) && fresh(streams) && fresh(streams.Repr)
      ensures this.session == session && !isProcessing && currentTaskId == JNull && currentRecordingPath == None
      ensures !livekit.isConnected && !livekit.isRecording && streams.handler == None
    {
      this.session := session;
      livekit := new LiveKitClient();
      streams := new StreamRecording.StreamManager(session);
      isProcessing, currentTaskId, currentRecordingPath := false, JNull, None;
    }

    /** Sets up the stream manager's handler. */
    method Initialize() returns (ok: bool)
      requires Valid()
      modifies streams
      ensures Valid() && fresh(streams.Repr - old(streams.Repr))
      ensures ok <==> Truthy(session.websocketUrl) && Truthy(session.accessToken)
    {
      ok := streams.InitializeStream();
    }

    /** The `finally` of a task that passed the guard. */
    method EndTask(result: Option<string>) returns (step: Step)
      requires livekit.Valid() && streams.Valid() && streams.session == session && livekit !in streams.Repr
      modifies this`isProcessing, this`currentTaskId
      ensures Valid() && step == Finished(result) && !isProcessing && currentTaskId == JNull
    {
      isProcessing := false;
      currentTaskId := JNull;
      step := Finished(result);
    }

    /** Joins the room unless already connected. Gives up, touching
        nothing, without the session's URL or token. The session's id (when
        it is a string) and the vendor's base URL are passed on for the
        events socket. */
    method JoinRoom(roomOk: bool, eventsOk: bool) returns (joined: bool, dialled: Option<string>)
      requires livekit.Valid()
      modifies livekit
      ensures livekit.Valid()
      ensures joined <==> old(livekit.isConnected) || (Truthy(session.websocketUrl) && Truthy(session.accessToken) && roomOk)
      ensures joined ==> livekit.isConnected
      ensures !joined ==> !livekit.isConnected
      ensures old(livekit.isConnected) || !Truthy(session.websocketUrl) || !Truthy(session.accessToken) ==>
        dialled == None && unchanged(livekit)
      ensures livekit.isRecording == old(livekit.isRecording) && livekit.currentTaskId == old(livekit.currentTaskId)
      ensures livekit.videoFrames == old(livekit.videoFrames) && livekit.audioFrames == old(livekit.audioFrames)
    {
      if livekit.isConnected {
        return true, None;
      }
      if !Truthy(session.websocketUrl) || !Truthy(session.accessToken) {
        return false, None;
      }
      joined, dialled := livekit.Connect(TextOf(session.accessToken), AsText(session.sessionId), Some(BASE_URL), roomOk, eventsOk);
    }

    /** Closes the recording window, if one is open. */
    method CloseWindow(env: ExportEnv) returns (path: Option<string>)
      requires livekit.Valid()
      modifies livekit
      ensures livekit.Valid() && !livekit.isRecording && livekit.videoFrames == [] && livekit.audioFrames == []
      ensures livekit.isConnected == old(livekit.isConnected) && livekit.roomOpen == old(livekit.roomOpen)
      ensures path == if old(livekit.isRecording)
        then Export(old(livekit.videoFrames), old(livekit.audioFrames), old(livekit.currentTaskId), env).result
        else None
    {
      var report;
      path, report := livekit.StopRecording(env);
    }

    /** The task up to its wait. Refused, changing nothing, while another
        task is in flight. Otherwise the room is joined if it is not yet
        (giving up without the session's URL or token, or when joining
        fails), a recording window opens under the local id `task_<now>`,
        and the text is dispatched. Every path that does not wait ends with
        the guard released. `env` drives the exports of windows closed here. */
    method BeginTextTask(text: string, taskType: string, now: nat, roomOk: bool, eventsOk: bool,
                         reply: Response, env: ExportEnv)
      returns (step: Step, sent: seq<Request>, dialled: Option<string>)
      requires Valid()
      modifies this, livekit
      ensures Valid()
      // the guard: a task in flight is left alone
      ensures old(isProcessing) ==> (
        && step == Finished(None) && sent == [] && dialled == None
        && unchanged(this) && unchanged(livekit))
      // every path that does not wait releases the guard
      ensures !old(isProcessing) && step.Finished? ==> !isProcessing && currentTaskId == JNull
      ensures step.Finished? ==> step.result == None
      // a missing URL or token: no room, no window, no request
      ensures (&& !old(isProcessing) && !old(livekit.isConnected)
               && (!Truthy(session.websocketUrl) || !Truthy(session.accessToken))) ==> (
        && step == Finished(None) && sent == [] && dialled == None
        && unchanged(livekit) && !livekit.isConnected)
      // an existing connection is reused
      ensures old(livekit.isConnected) ==> dialled == None && livekit.isConnected
      // the task request goes out exactly when the window opened and there is a session
      ensures sent == if old(CanStart(roomOk)) && Truthy(session.sessionId)
        then [Request(POST, Endpoint("/streaming.task"), TaskBody(session.sessionId, text, taskType, "sync"))] else []
      // it waits exactly when nothing stood in the way
      ensures step.Waiting? <==> old(Unobstructed(now, roomOk, reply))
      // waiting: a fresh window is open under the local id and the dispatch was read
      ensures step.Waiting? ==> (
        && isProcessing && livekit.isRecording && livekit.currentTaskId == Some(LocalTaskId(now))
        && livekit.videoFrames == [] && livekit.audioFrames == []
        && step.waitMs == ReadDispatch(reply.body.value, LocalTaskId(now)).value.waitMs
        && currentTaskId == ReadDispatch(reply.body.value, LocalTaskId(now)).value.taskId)
      // a window opened here and not waited on is closed again
      ensures step.Finished? && !old(livekit.isRecording) ==> !livekit.isRecording
    {
      if isProcessing {
        return Finished(None), [], None;
      }
      isProcessing := true;
      var joined;
      joined, dialled := JoinRoom(roomOk, eventsOk);
      if !joined {
        step := EndTask(None);
        return step, [], dialled;
      }
      var localId := LocalTaskId(now);
      var started := livekit.StartRecording(localId, now as real);
      if started.None? {
        step := EndTask(None);
        return step, [], dialled;
      }
      step, sent := DispatchTask(text, taskType, localId, reply, env);
    }

    /** Dispatches the text with the window open. A failed dispatch closes
        the window; an unreadable reply closes it too (the exception path).
        A readable reply leaves the task waiting for the announced time,
        under the vendor's task id. */
    method DispatchTask(text: string, taskType: string, localId: string, reply: Response, env: ExportEnv)
      returns (step: Step, sent: seq<Request>)
      requires livekit.Valid() && streams.Valid() && streams.session == session && livekit !in streams.Repr
      requires isProcessing && livekit.isRecording
      modifies this, livekit
      ensures Valid()
      ensures sent == if Truthy(session.sessionId)
        then [Request(POST, Endpoint("/streaming.task"), TaskBody(session.sessionId, text, taskType, "sync"))] else []
      ensures step.Waiting? <==> Truthy(session.sessionId) && Dispatched(reply, localId)
      ensures step.Waiting? ==> (
        && isProcessing && unchanged(livekit)
        && step.waitMs == ReadDispatch(reply.body.value, localId).value.waitMs
        && currentTaskId == ReadDispatch(reply.body.value, localId).value.taskId)
      ensures step.Finished? ==> step == Finished(None) && !isProcessing && currentTaskId == JNull && !livekit.isRecording
      ensures livekit.isConnected == old(livekit.isConnected)
    {
      var out;
      out, sent := session.SendTask(reply, text, taskType);
      if out.Raised? || out.value.None? || !Truthy(out.value.value) {
        // a raise, or a falsy reply: either way the open window is closed and the task ends
        step := Abandon(env);
      } else {
        step := AwaitDispatch(out.value.value, localId, env);
      }
    }

    /** Reads a truthy dispatch reply: records the task id and returns the
        wait, or takes the exception path when the reply cannot be read. */
    method AwaitDispatch(body: Json, localId: string, env: ExportEnv) returns (step: Step)
      requires livekit.Valid() && streams.Valid() && streams.session == session && livekit !in streams.Repr
      requires isProcessing && livekit.isRecording
      modifies this, livekit
      ensures Valid()
      ensures step.Waiting? <==> ReadDispatch(body, localId).Some?
      ensures step.Waiting? ==> (
        && isProcessing && unchanged(livekit)
        && step.waitMs == ReadDispatch(body, localId).value.waitMs
        && currentTaskId == ReadDispatch(body, localId).value.taskId)
      ensures step.Finished? ==> step == Finished(None) && !isProcessing && currentTaskId == JNull && !livekit.isRecording
      ensures livekit.isConnected == old(livekit.isConnected)
    {
      var dispatch := ReadDispatch(body, localId);
      if dispatch.None? {
        step := Abandon(env);
      } else {
        currentTaskId := dispatch.value.taskId;
        step := Waiting(dispatch.value.waitMs);
      }
    }

    /** The exception path, and the path of a falsy dispatch reply: close an
        open window, give up. */
    method Abandon(env: ExportEnv) returns (step: Step)
      requires livekit.Valid() && streams.Valid() && streams.session == session && livekit !in streams.Repr
      modifies this, livekit
      ensures Valid() && step == Finished(None) && !isProcessing && currentTaskId == JNull
      ensures !livekit.isRecording
      ensures livekit.isConnected == old(livekit.isConnected)
      ensures currentRecordingPath == old(currentRecordingPath)
    {
      if livekit.isRecording {
        var path := CloseWindow(env);
      }
      step := EndTask(None);
    }

    /** The task after its wait: closes the window and accepts the exported
        file only when `sizes` (the files on disk) gives it more than 1024
        bytes; the guard is released whatever the outcome. */
    method FinishTextTask(env: ExportEnv, sizes: map<string, int>) returns (r: Option<string>)
      requires Valid()
      modifies this, livekit
      ensures Valid() && !isProcessing && currentTaskId == JNull
      ensures currentRecordingPath == old(currentRecordingPath)
      ensures !livekit.isRecording && livekit.videoFrames == [] && livekit.audioFrames == []
      ensures r == AcceptVideo(
        if old(livekit.isRecording)
        then Export(old(livekit.videoFrames), old(livekit.audioFrames), old(livekit.currentTaskId), env).result
        else None, sizes)
      ensures r.Some? ==> r.value in sizes && sizes[r.value] > MIN_VIDEO_BYTES
    {
      var path := CloseWindow(env);
      r := AcceptVideo(path, sizes);
      var step := EndTask(r);
    }

    /** Frames the tracks deliver during the wait go to the open window. */
    method ReceiveDuringWait(video: seq<VideoArrival>, audio: seq<AudioArrival>)
      requires Valid()
      modifies livekit`videoFrames, livekit`audioFrames
      ensures Valid()
      ensures livekit.videoFrames ==
        if livekit.isRecording then old(livekit.videoFrames) + CapturedVideoFrames(video) else old(livekit.videoFrames)
      ensures livekit.audioFrames ==
        if livekit.isRecording then old(livekit.audioFrames) + CapturedAudioFrames(audio) else old(livekit.audioFrames)
    {
      livekit.ProcessVideoStream(video);
      livekit.ProcessAudioStream(audio);
    }

    /** `process_text_task` when nothing interrupts the wait; `video` and
        `audio` are the frames the tracks deliver while it waits. A task that
        gets as far as its wait returns the export of exactly those frames,
        under the local id, when the file is large enough; any other task
        returns nothing. */
    method ProcessTextTask(text: string, taskType: string, now: nat, roomOk: bool, eventsOk: bool, reply: Response,
                           video: seq<VideoArrival>, audio: seq<AudioArrival>, env: ExportEnv, sizes: map<string, int>)
      returns (r: Option<string>, sent: seq<Request>)
      requires Valid()
      modifies this, livekit
      ensures Valid()
      ensures old(isProcessing) ==> r == None && sent == [] && unchanged(this) && unchanged(livekit)
      ensures !old(isProcessing) ==> !isProcessing && currentTaskId == JNull
      // a window the task opened is closed again on every path
      ensures !old(livekit.isRecording) ==> !livekit.isRecording
      ensures sent == if old(CanStart(roomOk)) && Truthy(session.sessionId)
        then [Request(POST, Endpoint("/streaming.task"), TaskBody(session.sessionId, text, taskType, "sync"))] else []
      ensures old(Unobstructed(now, roomOk, reply)) ==>
        r == AcceptVideo(Export(CapturedVideoFrames(video), CapturedAudioFrames(audio), Some(LocalTaskId(now)), env).result, sizes)
      ensures !old(Unobstructed(now, roomOk, reply)) ==> r == None
    {
      var step, dialled;
      step, sent, dialled := BeginTextTask(text, taskType, now, roomOk, eventsOk, reply, env);
      if step.Waiting? {
        ReceiveDuringWait(video, audio);
        assert livekit.videoFrames == CapturedVideoFrames(video);
        assert livekit.audioFrames == CapturedAudioFrames(audio);
        r := FinishTextTask(env, sizes);
      } else {
        r := step.result;
      }
    }

    /** Idle: succeeds and does nothing. Otherwise, in this order: the
        remote interrupt, closing the recording window, stopping the stream
        recording; then the task state is cleared and the remote result
        returned. */
    method InterruptCurrentTask(reply: Response, env: ExportEnv) returns (ok: bool, trace: seq<Effect>)
      requires Valid()
      modifies this, livekit, streams, streams.Repr
      ensures Valid() && !isProcessing && currentTaskId == JNull
      ensures streams.handler == old(streams.handler) && streams.Repr == old(streams.Repr)
      ensures !old(isProcessing) ==>
        ok && trace == [] && unchanged(this) && unchanged(livekit) && unchanged(streams) && unchanged(streams.Repr)
      ensures old(isProcessing) ==> (
        && |trace| == 3 && trace[0].RemoteInterrupt? && trace[1].RecordingStopped? && trace[2].StreamStopped?
        && trace[0].ok == ok
        && trace[0].sent == (if Truthy(session.sessionId)
             then [Request(POST, Endpoint("/streaming.interrupt"), SessionBody(session.sessionId))] else [])
        && (ok <==> Truthy(session.sessionId) && reply.status == 200)
        && trace[1].result == (if old(livekit.isRecording)
             then Export(old(livekit.videoFrames), old(livekit.audioFrames), old(livekit.currentTaskId), env).result
             else None)
        && trace[2].result == old(StreamStopResult())
        && !livekit.isRecording && livekit.videoFrames == [] && livekit.audioFrames == []
        && currentRecordingPath == None
        && (streams.handler.Some? ==> streams.currentRecording == None && !streams.handler.value.recorder.isRecording))
    {
      if !isProcessing {
        return true, [];
      }
      ok, trace := InterruptRunningTask(reply, env);
    }

    /** The interrupt of a task in flight: the remote interrupt, then the
        window and the stream recording are closed and the guard released. */
    method InterruptRunningTask(reply: Response, env: ExportEnv) returns (ok: bool, trace: seq<Effect>)
      requires Valid() && isProcessing
      modifies this, livekit, streams, streams.Repr
      ensures Valid() && !isProcessing && currentTaskId == JNull
      ensures streams.handler == old(streams.handler) && streams.Repr == old(streams.Repr)
      ensures |trace| == 3 && trace[0].RemoteInterrupt? && trace[1].RecordingStopped? && trace[2].StreamStopped?
      ensures trace[0].ok == ok
      ensures trace[0].sent == if Truthy(session.sessionId)
        then [Request(POST, Endpoint("/streaming.interrupt"), SessionBody(session.sessionId))] else []
      ensures ok <==> Truthy(session.sessionId) && reply.status == 200
      ensures trace[1].result == if old(livekit.isRecording)
        then Export(old(livekit.videoFrames), old(livekit.audioFrames), old(livekit.currentTaskId), env).result
        else None
      ensures trace[2].result == old(StreamStopResult())
      ensures !livekit.isRecording && livekit.videoFrames == [] && livekit.audioFrames == []
      ensures currentRecordingPath == None
      ensures streams.handler.Some? ==> streams.currentRecording == None && !streams.handler.value.recorder.isRecording
    {
      var sent;
      ok, sent := session.InterruptTask(reply);
      var path, streamPath := CloseRecordings(env);
      trace := [RemoteInterrupt(sent, ok), RecordingStopped(path), StreamStopped(streamPath)];
      isProcessing := false;
      currentTaskId := JNull;
      currentRecordingPath := None;
    }

    /** The interrupt's two stops, in order: the recording window, then the
        stream manager's recording. */
    method CloseRecordings(env: ExportEnv) returns (path: Option<string>, streamPath: Option<string>)
      requires Valid()
      modifies livekit, streams, streams.Repr
      ensures Valid()
      ensures streams.handler == old(streams.handler) && streams.Repr == old(streams.Repr)
      ensures path == if old(livekit.isRecording)
        then Export(old(livekit.videoFrames), old(livekit.audioFrames), old(livekit.currentTaskId), env).result
        else None
      ensures !livekit.isRecording && livekit.videoFrames == [] && livekit.audioFrames == []
      ensures streams.handler.Some? ==> streams.currentRecording == None && !streams.handler.value.recorder.isRecording
      ensures streamPath == old(StreamStopResult())
    {
      path := CloseWindow(env);
      streamPath := StopStreamRecording();
    }

    /** What stopping the stream manager's recording gives back: the file
        of its handler's running recording, if there is one. */
    function StreamStopResult(): Option<string>
      requires streams.Valid()
      reads streams, streams.Repr
    {
      if streams.handler.Some? && streams.handler.value.recorder.isRecording
      then streams.handler.value.recorder.recordingFilename else None
    }

    /** Stops the stream manager's recording: the handler's recorder stops
        and its file is returned. */
    method StopStreamRecording() returns (path: Option<string>)
      requires streams.Valid() && livekit !in streams.Repr
      modifies streams, streams.Repr
      ensures streams.Valid() && livekit !in streams.Repr
      ensures streams.handler == old(streams.handler) && streams.Repr == old(streams.Repr)
      ensures streams.handler.Some? ==> streams.currentRecording == None && !streams.handler.value.recorder.isRecording
      ensures path == old(StreamStopResult())
    {
      path := streams.StopTaskRecording();
    }

    function GetStatus(): (s: Status)
      reads this
      ensures s.Processing? <==> isProcessing
      ensures s.Processing? ==> s.taskId == currentTaskId
    {
      if isProcessing then Processing(currentTaskId) else Ready
    }

    function GetProcessingStatus(): (s: ProcessingStatus)
      reads this, session
      ensures s.isProcessing == isProcessing && s.currentTaskId == currentTaskId
      ensures s.sessionActive == session.isActive && s.sessionId == session.sessionId
    {
      ProcessingStatus(isProcessing, currentTaskId, session.isActive, session.sessionId)
    }

    /** Interrupts a task in flight, leaves the room, drops the stream handler. */
    method Cleanup(reply: Response, env: ExportEnv) returns (trace: seq<Effect>)
      requires Valid()
      modifies this, livekit, streams, streams.Repr
      ensures Valid() && !isProcessing && currentTaskId == JNull
      ensures !livekit.isConnected && !livekit.roomOpen && !livekit.isRecording && streams.handler == None
      ensures old(isProcessing) <==> trace != []
      // a task in flight is interrupted first: the interrupt request, the window, the stream recording
      ensures old(isProcessing) ==> (
        && |trace| == 3 && trace[0].RemoteInterrupt? && trace[1].RecordingStopped? && trace[2].StreamStopped?
        && trace[0].sent == (if Truthy(session.sessionId)
             then [Request(POST, Endpoint("/streaming.interrupt"), SessionBody(session.sessionId))] else [])
        && trace[1].result == (if old(livekit.isRecording)
             then Export(old(livekit.videoFrames), old(livekit.audioFrames), old(livekit.currentTaskId), env).result
             else None)
        && trace[2].result == old(StreamStopResult()))
    {
      trace := [];
      if isProcessing {
        var ok;
        ok, trace := InterruptCurrentTask(reply, env);
      }
      var report := livekit.Disconnect(env);
      streams.Cleanup();
    }
  }

  /** The text a JSON value is passed on as when it is a string; other
      values are not rendered. */
  function TextOf(j: Json): string {
    if j.JStr? then j.s else ""
  }
}

=== FILE: sessions.dfy ===
/**
 * The remote session client: one local session record, a guard on the
 * session id before every remote call, and the decoding of the vendor's
 * varying JSON envelopes. HTTP is replaced by the reply each call receives
 * (a `Response` parameter or a reply oracle); every method returns the
 * requests it issued, so "no request was made" is `sent == []`.
 */
module Sessions {
  import opened Optional
  import opened Json

  // Configuration defaults (environment overrides are not modelled).
  const BASE_URL: string := "https://api.heygen.com/v1"
  const DEFAULT_AVATAR_ID: string := "default"
  const DEFAULT_QUALITY: string := "medium"
  const DEFAULT_VOICE_RATE: real := 1.0
  const IDLE_TIMEOUT: real := 120.0

  datatype Verb = GET | POST

  /** One HTTP request: GET requests carry `JNull` as their body. */
  datatype Request = Request(verb: Verb, url: string, body: Json)

  /** One HTTP reply; `body` is `None` when `response.json()` would raise. */
  datatype Response = Response(status: int, body: Option<Json>)

  /** What an awaited call did: returned a value, or raised to its caller. */
  datatype Outcome<+T> = Returned(value: T) | Raised

  function Endpoint(path: string): string { BASE_URL + path }

  function SessionBody(id: Json): Json { JObj(map["session_id" := id]) }

  function StopRequest(id: Json): Request {
    Request(POST, Endpoint("/streaming.stop"), SessionBody(id))
  }

  const LIST_REQUEST: Request := Request(GET, Endpoint("/streaming.list"), JNull)

  // ---------------------------------------------------------------------------
  // Session list decoding

  /** The ways the vendor has been seen to wrap a session list. */
  datatype Envelope = Bare | UnderData | UnderDataSessions

  function Wrap(shape: Envelope, sessions: seq<Json>): Json {
    match shape
    case Bare => JList(sessions)
    case UnderData => JObj(map["data" := JList(sessions)])
    case UnderDataSessions => JObj(map["data" := JObj(map["sessions" := JList(sessions)])])
  }

  /** `list_active_sessions`: the value the client treats as the session list.
      Only a 200 reply with a parseable body yields anything but `[]`. */
  function DecodeSessionList(resp: Response): (r: Json)
    // a failed call or an unparseable body reads as no sessions
    ensures resp.status != 200 || resp.body.None? ==> r == JList([])
    // a top-level list is the list itself
    ensures resp.status == 200 && resp.body.Some? && resp.body.value.JList? ==> r == resp.body.value
    // any top-level JSON type other than a list or dict reads as no sessions
    ensures resp.status == 200 && resp.body.Some? && !resp.body.value.JList? && !resp.body.value.JObj?
      ==> r == JList([])
    // a dict: `data.sessions` wins, then a list under `data`, then `data` as it is, else `[]`
    ensures resp.status == 200 && resp.body.Some? && resp.body.value.JObj? ==>
      var m := resp.body.value.fields;
      && ("data" !in m ==> r == JList([]))
      && ("data" in m && m["data"].JObj? && "sessions" in m["data"].fields ==> r == m["data"].fields["sessions"])
      && ("data" in m && !(m["data"].JObj? && "sessions" in m["data"].fields) ==> r == m["data"])
  {
    if resp.status != 200 || resp.body.None? then JList([])
    else
      match resp.body.value
      case JObj(m) =>
        var data := if "data" in m then m["data"] else JObj(map[]);
        if data.JObj? && "sessions" in data.fields then data.fields["sessions"]
        else if data.JList? then data
        else if "data" in m then m["data"]
        else JList([])
      case JList(_) => resp.body.value
      case _ => JList([])
  }

  /** Every recognised envelope decodes to the list it wraps. */
  lemma DecodeUnwrapsEveryEnvelope(shape: Envelope, sessions: seq<Json>)
    ensures DecodeSessionList(Response(200, Some(Wrap(shape, sessions)))) == JList(sessions)
  {
    match shape
    case Bare =>
    case UnderData =>
    case UnderDataSessions =>
  }

  /** The decoding quirk: a dict under `data` that lacks `sessions`, or a
      scalar under `data`, comes back unchanged rather than as `[]`. */
  lemma DecodeKeepsUnrecognisedData(data: Json)
    requires !data.JList?
    requires data.JObj? ==> "sessions" !in data.fields
    ensures DecodeSessionList(Response(200, Some(JObj(map["data" := data])))) == data
  {
  }

  // ---------------------------------------------------------------------------
  // Sweep

  /** A list entry the sweep stops: a dict with a truthy `session_id`. */
  predicate Sweepable(entry: Json) {
    entry.JObj? && Truthy(Field(entry.fields, "session_id"))
  }

  /** What the sweep stops for one list entry: its id, or nothing. */
  function EntryIds(entry: Json): (ids: seq<Json>)
    ensures |ids| <= 1
  {
    if Sweepable(entry) then [entry.fields["session_id"]] else []
  }

  /** The ids the sweep stops, in list order. */
  function SessionIds(entries: seq<Json>): (ids: seq<Json>)
    ensures |ids| <= |entries|
    ensures forall id :: id in ids ==> Truthy(id)
  {
    if entries == [] then [] else EntryIds(entries[0]) + SessionIds(entries[1..])
  }

  lemma {:induction false} SessionIdsAppend(xs: seq<Json>, ys: seq<Json>)
    ensures SessionIds(xs + ys) == SessionIds(xs) + SessionIds(ys)
    decreases |xs|
  {
    if xs == [] {
      assert xs + ys == ys;
    } else {
      assert (xs + ys)[0] == xs[0];
      assert (xs + ys)[1..] == xs[1..] + ys;
      SessionIdsAppend(xs[1..], ys);
      calc {
        SessionIds(xs + ys);
        EntryIds(xs[0]) + SessionIds(xs[1..] + ys);
        EntryIds(xs[0]) + (SessionIds(xs[1..]) + SessionIds(ys));
        (EntryIds(xs[0]) + SessionIds(xs[1..])) + SessionIds(ys);
      }
    }
  }

  /** No sweepable entry is skipped. */
  lemma {:induction false} SessionIdsComplete(entries: seq<Json>, i: nat)
    requires i < |entries| && Sweepable(entries[i])
    ensures entries[i].fields["session_id"] in SessionIds(entries)
    decreases i
  {
    if i > 0 {
      SessionIdsComplete(entries[1..], i - 1);
    }
  }

  /** Every stopped id comes from a sweepable entry. */
  lemma {:induction false} SessionIdsSound(entries: seq<Json>, id: Json)
    requires id in SessionIds(entries)
    ensures exists i :: 0 <= i < |entries| && Sweepable(entries[i]) && entries[i].fields["session_id"] == id
    decreases |entries|
  {
    if !(Sweepable(entries[0]) && entries[0].fields["session_id"] == id) {
      SessionIdsSound(entries[1..], id);
      var i :| 0 <= i < |entries[1..]| && Sweepable(entries[1..][i]) && entries[1..][i].fields["session_id"] == id;
      assert entries[i + 1] == entries[1..][i];
    }
  }

  /** Iterating over the decoded value: only a list has dict entries (a dict
      yields its keys, a string its characters, anything else raises and the
      sweep's own handler ends it). */
  function SweepTargets(listed: Json): (targets: seq<Json>)
    ensures !listed.JList? ==> targets == []
    ensures listed.JList? ==> |targets| <= |listed.items|
    // only truthy ids are ever stopped
    ensures forall id :: id in targets ==> Truthy(id)
  {
    if listed.JList? then SessionIds(listed.items) else []
  }

  function StopRequests(ids: seq<Json>): (rs: seq<Request>)
    ensures |rs| == |ids|
    ensures forall k :: 0 <= k < |ids| ==> rs[k] == StopRequest(ids[k])
  {
    if ids == [] then [] else [StopRequest(ids[0])] + StopRequests(ids[1..])
  }

  lemma {:induction false} StopRequestsAppend(xs: seq<Json>, ys: seq<Json>)
    ensures StopRequests(xs + ys) == StopRequests(xs) + StopRequests(ys)
  {
    assert |StopRequests(xs + ys)| == |StopRequests(xs) + StopRequests(ys)|;
    forall k | 0 <= k < |xs + ys|
      ensures StopRequests(xs + ys)[k] == (StopRequests(xs) + StopRequests(ys))[k]
    {
      if k < |xs| {
        assert (xs + ys)[k] == xs[k];
      } else {
        assert (xs + ys)[k] == ys[k - |xs|];
      }
    }
  }

  /** One more entry of the sweep: its ids, and its stop requests, follow the earlier ones. */
  lemma SweepStep(entries: seq<Json>, i: nat, ids: seq<Json>)
    requires i < |entries| && ids == SessionIds(entries[..i])
    ensures SessionIds(entries[..i + 1]) == ids + EntryIds(entries[i])
    ensures StopRequests(ids + EntryIds(entries[i])) == StopRequests(ids) + StopRequests(EntryIds(entries[i]))
  {
    assert entries[..i + 1] == entries[..i] + [entries[i]];
    SessionIdsAppend(entries[..i], [entries[i]]);
    assert SessionIds([entries[i]]) == EntryIds(entries[i]) + SessionIds([]);
    StopRequestsAppend(ids, EntryIds(entries[i]));
  }

  // ---------------------------------------------------------------------------
  // Request bodies

  /** Python's `value or default` for an optional string. */
  function OrDefault(value: Option<string>, default: string): string {
    if value.Some? && value.value != "" then value.value else default
  }

  /** The body of `streaming.new`. */
  function CreateBody(avatarId: Option<string>, quality: Option<string>, voice: Option<map<string, Json>>): (body: Json)
    ensures body.JObj?
    ensures body.fields.Keys ==
      {"quality", "avatar_id", "version", "video_encoding", "disable_idle_timeout", "activity_idle_timeout", "voice"}
    // caller's choices win when given and non-empty, else the configured defaults
    ensures quality.Some? && quality.value != "" ==> body.fields["quality"] == JStr(quality.value)
    ensures quality.None? || quality.value == "" ==> body.fields["quality"] == JStr(DEFAULT_QUALITY)
    ensures avatarId.Some? && avatarId.value != "" ==> body.fields["avatar_id"] == JStr(avatarId.value)
    ensures avatarId.None? || avatarId.value == "" ==> body.fields["avatar_id"] == JStr(DEFAULT_AVATAR_ID)
    ensures body.fields["version"] == JStr("v2") && body.fields["video_encoding"] == JStr("VP8")
    ensures body.fields["disable_idle_timeout"] == JBool(false)
    ensures body.fields["activity_idle_timeout"] == JNum(IDLE_TIMEOUT)
    // voice settings only replace the default rate when given and non-empty
    ensures voice.Some? && voice.value != map[] ==> body.fields["voice"] == JObj(voice.value)
    ensures voice.None? || voice.value == map[] ==> body.fields["voice"] == JObj(map["rate" := JNum(DEFAULT_VOICE_RATE)])
  {
    var voiceValue :=
      if voice.Some? && voice.value != map[] then JObj(voice.value)
      else JObj(map["rate" := JNum(DEFAULT_VOICE_RATE)]);
    JObj(map[
      "quality" := JStr(OrDefault(quality, DEFAULT_QUALITY)),
      "avatar_id" := JStr(OrDefault(avatarId, DEFAULT_AVATAR_ID)),
      "version" := JStr("v2"),
      "video_encoding" := JStr("VP8"),
      "disable_idle_timeout" := JBool(false),
      "activity_idle_timeout" := JNum(IDLE_TIMEOUT),
      "voice" := voiceValue
    ])
  }

  /** The body of `streaming.task`. */
  function TaskBody(sessionId: Json, text: string, taskType: string, taskMode: string): (body: Json)
    ensures body.JObj? && body.fields.Keys == {"session_id", "text", "task_type", "task_mode"}
    ensures body.fields["session_id"] == sessionId && body.fields["text"] == JStr(text)
    ensures body.fields["task_type"] == JStr(taskType) && body.fields["task_mode"] == JStr(taskMode)
  {
    JObj(map[
      "session_id" := sessionId,
      "text" := JStr(text),
      "task_type" := JStr(taskType),
      "task_mode" := JStr(taskMode)
    ])
  }

  /** `body.get('data', {})` read as a dict: `None` where the `.get`, or a
      `.get` on the result, raises because the value is not a dict. */
  function DataOf(body: Json): (data: Option<map<string, Json>>)
    ensures !body.JObj? ==> data.None?
    ensures body.JObj? && "data" !in body.fields ==> data == Some(map[])
    ensures body.JObj? && "data" in body.fields ==>
      (data.Some? <==> body.fields["data"].JObj?) && (data.Some? ==> JObj(data.value) == body.fields["data"])
  {
    if !body.JObj? then None
    else
      var data := Get(body, "data", JObj(map[])).value;
      if data.JObj? then Some(data.fields) else None
  }

  /** The session dict of a `streaming.new` reply, when the client gets as far
      as reading fields from it: a 200 reply whose body is a dict and whose
      `data` (default `{}`) is a dict. Otherwise the call fails before any
      field is assigned. */
  function SessionData(resp: Response): (data: Option<map<string, Json>>)
    ensures data.Some? <==> resp.status == 200 && resp.body.Some? && DataOf(resp.body.value).Some?
    ensures data.Some? ==> data == DataOf(resp.body.value)
  {
    if resp.status != 200 || resp.body.None? then None else DataOf(resp.body.value)
  }

  /** The reference lookup: the first of `urls` that answers 200 decides,
      with its body, or raises when that body is not JSON; none answering
      200 gives `None`. */
  function Lookup(urls: seq<string>, reply: string -> Response): Outcome<Option<Json>>
    decreases |urls|
  {
    if urls == [] then Returned(None)
    else if reply(urls[0]).status == 200 then
      (if reply(urls[0]).body.None? then Raised else Returned(reply(urls[0]).body))
    else Lookup(urls[1..], reply)
  }

  /** The `data` dict of the task result `download_task_video` works from:
      `None` when no truthy result was found, `Raised` when the lookup raises
      or the `.get` calls on the result do. */
  function FoundResult(taskId: string, reply: string -> Response): (found: Outcome<Option<map<string, Json>>>)
    ensures Lookup(TaskResultUrls(taskId), reply).Raised? ==> found.Raised?
    ensures found.Returned? && found.value.Some? ==>
      var res := Lookup(TaskResultUrls(taskId), reply);
      res.Returned? && res.value.Some? && Truthy(res.value.value) && found.value == DataOf(res.value.value)
  {
    match Lookup(TaskResultUrls(taskId), reply)
    case Raised => Raised
    case Returned(res) =>
      if res.None? || !Truthy(res.value) then Returned(None)
      else if DataOf(res.value).None? then Raised
      else Returned(DataOf(res.value))
  }

  /** The five endpoints `get_task_result` tries, in order. */
  function TaskResultUrls(taskId: string): (urls: seq<string>)
    ensures |urls| == 5
  {
    [ Endpoint("/streaming.task.result/" + taskId),
      Endpoint("/streaming/task/" + taskId),
      Endpoint("/streaming/task/" + taskId + "/result"),
      Endpoint("/streaming.task/" + taskId + "/status"),
      Endpoint("/task/" + taskId) ]
  }

  /** `data.get('video_url') or data.get('url') or data.get('result_url')`. */
  function PickVideoUrl(data: map<string, Json>): (url: Json)
    ensures Truthy(url) <==>
      Truthy(Field(data, "video_url")) || Truthy(Field(data, "url")) || Truthy(Field(data, "result_url"))
    ensures Truthy(Field(data, "video_url")) ==> url == data["video_url"]
    ensures !Truthy(Field(data, "video_url")) && Truthy(Field(data, "url")) ==> url == data["url"]
    ensures !Truthy(Field(data, "video_url")) && !Truthy(Field(data, "url")) ==> url == Field(data, "result_url")
  {
    var v := Field(data, "video_url");
    if Truthy(v) then v
    else
      var u := Field(data, "url");
      if Truthy(u) then u else Field(data, "result_url")
  }

  // ---------------------------------------------------------------------------
  // The client

  /** The local session record as one value. */
  datatype SessionRecord = SessionRecord(
    sessionId: Json, websocketUrl: Json, accessToken: Json,
    durationLimit: Json, realtimeEndpoint: Json, isActive: bool)

  /** What `_reset_session` leaves: everything cleared except the realtime endpoint. */
  function Closed(r: SessionRecord): SessionRecord {
    r.(sessionId := JNull, websocketUrl := JNull, accessToken := JNull, durationLimit := JNull, isActive := false)
  }

  class SessionManager {
    var sessionId: Json
    var websocketUrl: Json
    var accessToken: Json
    var durationLimit: Json
    var realtimeEndpoint: Json
    var isActive: bool

    function Record(): SessionRecord
      reads this
    {
      SessionRecord(sessionId, websocketUrl, accessToken, durationLimit, realtimeEndpoint, isActive)
    }

    constructor ()
      ensures Record() == SessionRecord(JNull, JNull, JNull, JNull, JNull, false)
    {
      sessionId, websocketUrl, accessToken := JNull, JNull, JNull;
      durationLimit, realtimeEndpoint, isActive := JNull, JNull, false;
    }

    /** Stops every remote session the list reply names, whatever the local
        record holds: one stop request per dict entry with a truthy
        `session_id`, in list order. A stop that fails is only logged. */
    method CloseAllActiveSessions(listReply: Response, stopStatus: Json -> int) returns (sent: seq<Request>)
      ensures sent == [LIST_REQUEST] + StopRequests(SweepTargets(DecodeSessionList(listReply)))
    {
      var listed := DecodeSessionList(listReply);
      sent := [LIST_REQUEST];
      if listed.JList? {
        var stops := StopEach(listed.items, stopStatus);
        sent := sent + stops;
      }
    }

    /** The sweep's loop over the listed entries. */
    method StopEach(entries: seq<Json>, stopStatus: Json -> int) returns (stops: seq<Request>)
      ensures stops == StopRequests(SessionIds(entries))
    {
      stops := [];
      ghost var ids: seq<Json> := [];
      var i := 0;
      while i < |entries|
        invariant 0 <= i <= |entries|
        invariant ids == SessionIds(entries[..i])
        invariant stops == StopRequests(ids)
      {
        var entry := entries[i];
        var more: seq<Request> := [];
        if entry.JObj? {
          var id := Field(entry.fields, "session_id");
          if Truthy(id) {
            var status := stopStatus(id);  // a non-200 is logged and the sweep goes on
            more := [StopRequest(id)];
          }
        }
        assert more == StopRequests(EntryIds(entry));
        SweepStep(entries, i, ids);
        stops := stops + more;
        ids := ids + EntryIds(entry);
        i := i + 1;
      }
      assert entries[..i] == entries;
    }

    /** `streaming.new`. Does not sweep other sessions first and never sets
        `isActive`. */
    method CreateSession(avatarId: Option<string>, quality: Option<string>, voice: Option<map<string, Json>>,
                         reply: Response)
      returns (ok: bool, sent: Request)
      modifies this
      ensures sent == Request(POST, Endpoint("/streaming.new"), CreateBody(avatarId, quality, voice))
      ensures ok <==> SessionData(reply).Some? && Truthy(Field(SessionData(reply).value, "session_id"))
      // failure before any assignment: the record is untouched
      ensures SessionData(reply).None? ==> Record() == old(Record())
      // all five fields are overwritten from the reply, even without a session id
      ensures SessionData(reply).Some? ==>
        var d := SessionData(reply).value;
        Record() == SessionRecord(Field(d, "session_id"), Field(d, "url"), Field(d, "access_token"),
                                  Field(d, "session_duration_limit"), Field(d, "realtime_endpoint"), old(isActive))
    {
      sent := Request(POST, Endpoint("/streaming.new"), CreateBody(avatarId, quality, voice));
      if reply.status != 200 || reply.body.None? {
        return false, sent;
      }
      var body := reply.body.value;
      if !body.JObj? {
        return false, sent;
      }
      var data := Get(body, "data", JObj(map[])).value;
      if !data.JObj? {
        return false, sent;  // `session_data.get` raises; the handler returns False
      }
      var d := data.fields;
      sessionId := Field(d, "session_id");
      websocketUrl := Field(d, "url");
      accessToken := Field(d, "access_token");
      durationLimit := Field(d, "session_duration_limit");
      realtimeEndpoint := Field(d, "realtime_endpoint");
      ok := Truthy(sessionId);
    }

    /** `streaming.start`: needs a session id; only a 200 marks the session active. */
    method StartSession(reply: Response) returns (ok: bool, sent: seq<Request>)
      modifies this
      ensures !Truthy(old(sessionId)) ==> !ok && sent == [] && Record() == old(Record())
      ensures Truthy(old(sessionId)) ==>
        && sent == [Request(POST, Endpoint("/streaming.start"), SessionBody(old(sessionId)))]
        && ok == (reply.status == 200)
      ensures Record() == old(Record()).(isActive := old(isActive) || ok)
    {
      if !Truthy(sessionId) {
        return false, [];
      }
      sent := [Request(POST, Endpoint("/streaming.start"), SessionBody(sessionId))];
      ok := reply.status == 200;
      if ok {
        isActive := true;
      }
    }

    /** `streaming.task`. A 200 reply whose body is not JSON raises. */
    method SendTask(reply: Response, text: string, taskType: string := "repeat", taskMode: string := "sync")
      returns (out: Outcome<Option<Json>>, sent: seq<Request>)
      ensures !Truthy(sessionId) ==> out == Returned(None) && sent == []
      ensures Truthy(sessionId) ==>
        sent == [Request(POST, Endpoint("/streaming.task"), TaskBody(sessionId, text, taskType, taskMode))]
      ensures out.Raised? <==> Truthy(sessionId) && reply.status == 200 && reply.body.None?
      ensures out.Returned? && out.value.Some? <==> Truthy(sessionId) && reply.status == 200 && reply.body.Some?
      ensures out.Returned? && out.value.Some? ==> out.value == reply.body
    {
      if !Truthy(sessionId) {
        return Returned(None), [];
      }
      sent := [Request(POST, Endpoint("/streaming.task"), TaskBody(sessionId, text, taskType, taskMode))];
      if reply.status == 200 {
        if reply.body.None? {
          out := Raised;
        } else {
          out := Returned(reply.body);
        }
      } else {
        out := Returned(None);
      }
    }

    /** Tries the five result endpoints in order and returns the first 200 body. */
    method GetTaskResult(taskId: string, reply: string -> Response) returns (out: Outcome<Option<Json>>, tried: seq<string>)
      ensures !Truthy(sessionId) ==> out == Returned(None) && tried == []
      ensures Truthy(sessionId) ==> tried != [] && tried <= TaskResultUrls(taskId)
      // every endpoint before the last one tried failed
      ensures forall k :: 0 <= k < |tried| - 1 ==> reply(tried[k]).status != 200
      // nothing found: all five were tried and all failed
      ensures Truthy(sessionId) && out == Returned(None) ==>
        tried == TaskResultUrls(taskId) && reply(tried[4]).status != 200
      // found: the last endpoint tried answered 200 and its body is the result
      ensures out.Returned? && out.value.Some? ==>
        tried != [] && reply(tried[|tried| - 1]).status == 200 && reply(tried[|tried| - 1]).body == out.value
      ensures out.Raised? ==>
        tried != [] && reply(tried[|tried| - 1]).status == 200 && reply(tried[|tried| - 1]).body.None?
      ensures Truthy(sessionId) ==> out == Lookup(TaskResultUrls(taskId), reply)
    {
      if !Truthy(sessionId) {
        return Returned(None), [];
      }
      var urls := TaskResultUrls(taskId);
      tried := [];
      var i := 0;
      while i < |urls|
        invariant 0 <= i <= |urls|
        invariant tried == urls[..i]
        invariant forall k :: 0 <= k < i ==> reply(urls[k]).status != 200
        invariant Lookup(urls, reply) == Lookup(urls[i..], reply)
      {
        var url := urls[i];
        tried := tried + [url];
        var r := reply(url);
        if r.status == 200 {
          if r.body.None? {
            return Raised, tried;
          }
          return Returned(r.body), tried;
        }
        assert urls[i..][1..] == urls[i + 1..];
        i := i + 1;
      }
      assert tried == urls;
      out := Returned(None);
    }

    /** Looks the task up, picks its video URL and downloads it. The result
        lookup and the `.get` calls are outside the handler, so a non-dict
        result or `data` raises; the download itself fails with False.
        Returns the endpoints the lookup tried and the URL fetched, if any. */
    method DownloadTaskVideo(taskId: string, reply: string -> Response, fetchStatus: int, writeOk: bool)
      returns (out: Outcome<bool>, tried: seq<string>, fetched: Option<Json>)
      ensures !Truthy(sessionId) ==> out == Returned(false) && tried == [] && fetched.None?
      ensures Truthy(sessionId) ==> tried != [] && tried <= TaskResultUrls(taskId)
      // the lookup raises, or finds a truthy result that is not a dict or whose `data` is not
      ensures out.Raised? <==> Truthy(sessionId) && FoundResult(taskId, reply).Raised?
      // the URL fetched is the one PickVideoUrl selects from the result's `data`, whenever that is truthy
      ensures fetched.Some? <==> (
        && Truthy(sessionId) && FoundResult(taskId, reply).Returned?
        && FoundResult(taskId, reply).value.Some? && Truthy(PickVideoUrl(FoundResult(taskId, reply).value.value)))
      ensures fetched.Some? ==> fetched.value == PickVideoUrl(FoundResult(taskId, reply).value.value)
      ensures out == Returned(true) <==> fetched.Some? && fetched.value.JStr? && fetchStatus == 200 && writeOk
    {
      var res;
      res, tried := GetTaskResult(taskId, reply);
      if !Truthy(sessionId) {
        return Returned(false), tried, None;
      }
      if res.Raised? {
        return Raised, tried, None;
      }
      if res.value.None? || !Truthy(res.value.value) {
        return Returned(false), tried, None;
      }
      var data := DataOf(res.value.value);
      if data.None? {
        return Raised, tried, None;
      }
      var url := PickVideoUrl(data.value);
      if !Truthy(url) {
        return Returned(false), tried, None;
      }
      fetched := Some(url);
      if !url.JStr? {
        return Returned(false), tried, fetched;  // the HTTP client rejects it inside the handler
      }
      out := Returned(fetchStatus == 200 && writeOk);
    }

    /** `streaming.interrupt`: False without a session, else whether it answered 200. */
    method InterruptTask(reply: Response) returns (ok: bool, sent: seq<Request>)
      ensures ok <==> Truthy(sessionId) && reply.status == 200
      ensures sent == if Truthy(sessionId)
        then [Request(POST, Endpoint("/streaming.interrupt"), SessionBody(sessionId))] else []
    {
      if !Truthy(sessionId) {
        return false, [];
      }
      sent := [Request(POST, Endpoint("/streaming.interrupt"), SessionBody(sessionId))];
      ok := reply.status == 200;
    }

    /** `streaming.keep_alive`: False without a session, else whether it answered 200. */
    method KeepAlive(reply: Response) returns (ok: bool, sent: seq<Request>)
      ensures ok <==> Truthy(sessionId) && reply.status == 200
      ensures sent == if Truthy(sessionId)
        then [Request(POST, Endpoint("/streaming.keep_alive"), SessionBody(sessionId))] else []
    {
      if !Truthy(sessionId) {
        return false, [];
      }
      sent := [Request(POST, Endpoint("/streaming.keep_alive"), SessionBody(sessionId))];
      ok := reply.status == 200;
    }

    /** `streaming.stop` for the held session. With no session it succeeds
        without a request; on 200 the record is reset; otherwise nothing changes. */
    method CloseSession(reply: Response) returns (ok: bool, sent: seq<Request>)
      modifies this
      ensures !Truthy(old(sessionId)) ==> ok && sent == [] && Record() == old(Record())
      ensures Truthy(old(sessionId)) ==> sent == [StopRequest(old(sessionId))] && ok == (reply.status == 200)
      ensures Truthy(old(sessionId)) && ok ==> Record() == Closed(old(Record()))
      ensures !ok ==> Record() == old(Record())
      ensures ok ==> !Truthy(sessionId)
    {
      if !Truthy(sessionId) {
        return true, [];
      }
      sent := [StopRequest(sessionId)];
      if reply.status == 200 {
        ResetSession();
        ok := true;
      } else {
        ok := false;
      }
    }

    method ResetSession()
      modifies this
      ensures Record() == Closed(old(Record()))
    {
      sessionId := JNull;
      websocketUrl := JNull;
      accessToken := JNull;
      durationLimit := JNull;
      isActive := false;
    }

    /** Closes the session only when it was marked active. */
    method Cleanup(reply: Response) returns (sent: seq<Request>)
      modifies this
      ensures !old(isActive) ==> sent == [] && Record() == old(Record())
      ensures old(isActive) && Truthy(old(sessionId)) ==> sent == [StopRequest(old(sessionId))]
      ensures old(isActive) && Truthy(old(sessionId)) && reply.status == 200 ==> Record() == Closed(old(Record()))
      // an active record without an id, or a refused stop, is kept as it was
      ensures old(isActive) && !Truthy(old(sessionId)) ==> sent == [] && Record() == old(Record())
      ensures old(isActive) && Truthy(old(sessionId)) && reply.status != 200 ==> Record() == old(Record())
    {
      sent := [];
      if isActive {
        var ok;
        ok, sent := CloseSession(reply);
      }
    }

    /** Closing is idempotent: once a close succeeds, a second one succeeds
        too, without a request, whatever reply it would have received. */
    method CloseSessionTwice(first: Response, second: Response) returns (ok1: bool, ok2: bool, sent2: seq<Request>)
      modifies this
      ensures ok1 ==> ok2 && sent2 == [] && !Truthy(sessionId)
    {
      var sent1;
      ok1, sent1 := CloseSession(first);
      ok2, sent2 := CloseSession(second);
    }
  }
}

=== FILE: stream_recorder.dfy ===
/**
 * The legacy stream recorder: a start/add/stop recorder over one video
 * writer, the stream handler that drives it with a simulated three-second
 * recording, and the manager that owns the handler for the orchestrator.
 *
 * The video writer is a value: whether it opens is a parameter, the frames
 * it encodes are kept in order (like OpenCV's writer, it skips a frame of
 * another size than the one it was opened at), and releasing it hands back
 * what was encoded. The clock's `%Y%m%d_%H%M%S` text is a parameter.
 */
module StreamRecording {
  import opened Optional
  import opened Json
  import opened Paths
  import opened Sessions

  const OUTPUT_DIR: string := "outputs"
  const VIDEO_FORMAT: string := "mp4"
  const DEFAULT_PREFIX: string := "avatar_response"
  const DEFAULT_WIDTH: nat := 720
  const DEFAULT_HEIGHT: nat := 480
  const DEFAULT_FPS: nat := 30
  /** Length of the simulated recording, in seconds. */
  const SIMULATED_SECONDS: nat := 3

  /** A frame as the simulation draws it: a black card with one caption. */
  datatype Frame = CaptionCard(width: nat, height: nat, caption: string)

  /** An open (or failed) video writer and the frames it has encoded so far. */
  datatype VideoWriter = VideoWriter(path: string, fps: nat, width: nat, height: nat, isOpen: bool, frames: seq<Frame>)

  /** The writer encodes only frames of the size it was opened at. */
  predicate Fits(frame: Frame, w: VideoWriter) {
    frame.width == w.width && frame.height == w.height
  }

  /** The `i`-th frame (from 0) of the simulated recording. */
  function SimulatedFrame(i: nat): (f: Frame)
    ensures f.width == DEFAULT_WIDTH && f.height == DEFAULT_HEIGHT
  {
    CaptionCard(DEFAULT_WIDTH, DEFAULT_HEIGHT, "Avatar Response Frame " + NatToString(i + 1))
  }

  /** The simulated frames are numbered from 1 and no two carry the same caption. */
  lemma SimulatedFramesDistinct(i: nat, j: nat)
    requires i != j
    ensures SimulatedFrame(i) != SimulatedFrame(j)
  {
    var prefix := "Avatar Response Frame ";
    if SimulatedFrame(i) == SimulatedFrame(j) {
      var a, b := prefix + NatToString(i + 1), prefix + NatToString(j + 1);
      assert a[|prefix|..] == NatToString(i + 1);
      assert b[|prefix|..] == NatToString(j + 1);
      NatToStringInjective(i + 1, j + 1);
    }
  }

  // ---------------------------------------------------------------------------

  /** A joined path ends with whatever its name ends with. */
  lemma EndsWithSuffix(dir: string, name: string, suffix: string)
    requires |suffix| <= |name| && name[|name| - |suffix|..] == suffix
    ensures var path := Join(dir, name); |suffix| <= |path| && path[|path| - |suffix|..] == suffix
  {
    var path := Join(dir, name);
    assert path[|path| - |suffix|..] == path[|path| - |name|..][|name| - |suffix|..];
  }

  class StreamRecorder {
    const outputDir: string
    var writer: Option<VideoWriter>        // `current_recording`
    var recordingFilename: Option<string>
    var isRecording: bool

    /** While recording, an opened writer exists and writes to the file name
        `start_recording` returned. */
    ghost predicate Valid()
      reads this
    {
      isRecording ==> writer.Some? && writer.value.isOpen && recordingFilename == Some(writer.value.path)
    }

    /** An empty or missing directory falls back to the configured one. */
    constructor (outputDir: Option<string>)
      ensures Valid() && !isRecording && writer == None && recordingFilename == None
      ensures this.outputDir == if outputDir.Some? && outputDir.value != "" then outputDir.value else OUTPUT_DIR
    {
      this.outputDir := if outputDir.Some? && outputDir.value != "" then outputDir.value else OUTPUT_DIR;
      writer, recordingFilename, isRecording := None, None, false;
    }

    /** `<output_dir>/<prefix>_<timestamp>.mp4`. */
    function GenerateFilename(stamp: string, prefix: string := DEFAULT_PREFIX): (path: string)
      ensures |prefix| > 0 && prefix[0] != '/' ==>
        path == outputDir + (if outputDir == "" || outputDir[|outputDir| - 1] == '/' then "" else "/") + (prefix + "_" + stamp + ".mp4")
      ensures |path| >= 4 && path[|path| - 4..] == ".mp4"
    {
      assert "." + VIDEO_FORMAT == ".mp4";
      var name := prefix + "_" + stamp + ".mp4";
      EndsWithSuffix(outputDir, name, ".mp4");
      if |prefix| > 0 then
        assert name[0] == prefix[0];
        Join(outputDir, name)
      else
        Join(outputDir, name)
    }

    /** Two recordings started at different clock texts get different files. */
    lemma GenerateFilenameInjective(stamp1: string, stamp2: string)
      requires GenerateFilename(stamp1) == GenerateFilename(stamp2)
      ensures stamp1 == stamp2
    {
      var dir := outputDir + (if outputDir == "" || outputDir[|outputDir| - 1] == '/' then "" else "/");
      var lead := DEFAULT_PREFIX + "_";
      var name1, name2 := lead + stamp1 + ".mp4", lead + stamp2 + ".mp4";
      assert GenerateFilename(stamp1) == dir + name1;
      assert GenerateFilename(stamp2) == dir + name2;
      assert name1 == (dir + name1)[|dir|..];
      assert name2 == (dir + name2)[|dir|..];
      assert name1[|lead|..|name1| - 4] == stamp1;
      assert name2[|lead|..|name2| - 4] == stamp2;
    }

    /** Stops a running recording first, then creates a writer for a new
        file. Recording starts, and the name is returned, only if the writer
        opened. `released` is the writer the stop closed, if any. */
    method StartRecording(stamp: string, opens: bool, width: nat := DEFAULT_WIDTH, height: nat := DEFAULT_HEIGHT,
                          fps: nat := DEFAULT_FPS)
      returns (r: Option<string>, released: Option<VideoWriter>)
      requires Valid()
      modifies this
      ensures Valid()
      ensures released == if old(isRecording) then old(writer) else None
      ensures recordingFilename == Some(GenerateFilename(stamp))
      ensures writer == Some(VideoWriter(GenerateFilename(stamp), fps, width, height, opens, []))
      ensures isRecording == opens
      ensures r == if opens then Some(GenerateFilename(stamp)) else None
    {
      released := None;
      if isRecording {
        var stopped;
        stopped, released := StopRecording();
      }
      var filename := GenerateFilename(stamp);
      recordingFilename := Some(filename);
      writer := Some(VideoWriter(filename, fps, width, height, opens, []));
      if opens {
        isRecording := true;
        r := Some(filename);
      } else {
        r := None;
      }
    }

    /** Hands the frame to the writer only while recording with a writer;
        the writer encodes it only when it has the writer's size. */
    method AddFrame(frame: Frame)
      requires Valid()
      modifies this`writer
      ensures Valid()
      ensures writer == if isRecording && old(writer).Some? && Fits(frame, old(writer).value)
        then Some(old(writer).value.(frames := old(writer).value.frames + [frame])) else old(writer)
    {
      if isRecording && writer.Some? && Fits(frame, writer.value) {
        writer := Some(writer.value.(frames := writer.value.frames + [frame]));
      }
    }

    /** Not recording: `None`, nothing changes. Otherwise recording stops,
        the writer is released and cleared, and the file name start produced
        is returned. */
    method StopRecording() returns (r: Option<string>, released: Option<VideoWriter>)
      requires Valid()
      modifies this
      ensures Valid()
      ensures !old(isRecording) ==> r == None && released == None && unchanged(this)
      ensures old(isRecording) ==>
        && r == old(recordingFilename) && r == Some(old(writer).value.path)
        && released == old(writer)
        && !isRecording && writer == None && recordingFilename == old(recordingFilename)
    {
      if !isRecording {
        return None, None;
      }
      isRecording := false;
      r := recordingFilename;
      released := writer;
      writer := None;
    }

    method Cleanup() returns (released: Option<VideoWriter>)
      requires Valid()
      modifies this
      ensures Valid() && !isRecording
      ensures released == if old(isRecording) then old(writer) else None
      ensures !old(isRecording) ==> unchanged(this)
    {
      released := None;
      if isRecording {
        var r;
        r, released := StopRecording();
      }
    }
  }

  // ---------------------------------------------------------------------------

  class StreamHandler {
    const websocketUrl: Json
    const accessToken: Json
    const recorder: StreamRecorder
    var isConnected: bool

    ghost predicate Valid()
      reads this, recorder
    {
      recorder.Valid()
    }

    constructor (websocketUrl: Json, accessToken: Json)
      ensures Valid() && fresh(recorder) && !isConnected
      ensures this.websocketUrl == websocketUrl && this.accessToken == accessToken
      ensures recorder.outputDir == OUTPUT_DIR && !recorder.isRecording && recorder.writer == None
    {
      this.websocketUrl := websocketUrl;
      this.accessToken := accessToken;
      recorder := new StreamRecorder(None);
      isConnected := false;
    }

    /** The connection is emulated and always succeeds. */
    method Connect() returns (ok: bool)
      modifies this`isConnected
      ensures ok && isConnected
    {
      isConnected := true;
      ok := true;
    }

    /** Refused when not connected. Otherwise starts the recorder and, when
        it opened, records the simulated three seconds at 30 fps. */
    method StartRecordingSession(stamp: string, opens: bool) returns (r: Option<string>)
      requires Valid()
      modifies recorder
      ensures Valid()
      ensures !isConnected ==> r == None && unchanged(recorder)
      ensures isConnected ==> r == if opens then Some(recorder.GenerateFilename(stamp)) else None
      ensures isConnected ==> recorder.isRecording == opens
      // every simulated frame reached the writer, in order
      ensures isConnected && opens ==>
        && recorder.writer.Some? && |recorder.writer.value.frames| == SIMULATED_SECONDS * DEFAULT_FPS
        && forall i :: 0 <= i < |recorder.writer.value.frames| ==> recorder.writer.value.frames[i] == SimulatedFrame(i)
    {
      if !isConnected {
        return None;
      }
      var released;
      r, released := recorder.StartRecording(stamp, opens);
      if r.Some? {
        SimulateRecording();
      }
    }

    /** `_simulate_recording`: adds `duration_seconds * fps` numbered frames. */
    method SimulateRecording()
      requires Valid() && recorder.isRecording && recorder.writer.Some? && recorder.writer.value.frames == []
      // the writer was opened at the simulated frames' size, as `start_recording`'s defaults do
      requires recorder.writer.value.width == DEFAULT_WIDTH && recorder.writer.value.height == DEFAULT_HEIGHT
      modifies recorder`writer
      ensures Valid() && recorder.writer.Some?
      ensures recorder.writer.value == old(recorder.writer.value).(frames := recorder.writer.value.frames)
      ensures |recorder.writer.value.frames| == SIMULATED_SECONDS * DEFAULT_FPS
      ensures forall i :: 0 <= i < |recorder.writer.value.frames| ==> recorder.writer.value.frames[i] == SimulatedFrame(i)
    {
      var i := 0;
      while i < SIMULATED_SECONDS * DEFAULT_FPS
        invariant 0 <= i <= SIMULATED_SECONDS * DEFAULT_FPS
        invariant recorder.Valid() && recorder.isRecording && recorder.writer.Some?
        invariant recorder.writer.value == old(recorder.writer.value).(frames := recorder.writer.value.frames)
        invariant |recorder.writer.value.frames| == i
        invariant forall k :: 0 <= k < i ==> recorder.writer.value.frames[k] == SimulatedFrame(k)
      {
        recorder.AddFrame(SimulatedFrame(i));
        i := i + 1;
      }
    }

    method StopRecordingSession() returns (r: Option<string>, released: Option<VideoWriter>)
      requires Valid()
      modifies recorder
      ensures Valid()
      ensures !old(recorder.isRecording) ==> r == None && unchanged(recorder)
      ensures old(recorder.isRecording) ==>
        r == old(recorder.recordingFilename) && released == old(recorder.writer) && !recorder.isRecording
    {
      r, released := recorder.StopRecording();
    }

    /** Marks the handler disconnected and stops a running recording. */
    method Disconnect() returns (released: Option<VideoWriter>)
      requires Valid()
      modifies this`isConnected, recorder
      ensures Valid() && !isConnected && !recorder.isRecording
      ensures released == if old(recorder.isRecording) then old(recorder.writer) else None
    {
      isConnected := false;
      released := recorder.Cleanup();
    }
  }

  // ---------------------------------------------------------------------------

  class StreamManager {
    const session: SessionManager
    var handler: Option<StreamHandler>
    var currentRecording: Option<string>
    /** The handler and its recorder, when there is a handler. */
    ghost var Repr: set<object>

    ghost predicate Valid()
      reads this, Repr
    {
      && Repr == (if handler.Some? then {handler.value, handler.value.recorder} else {})
      && (handler.Some? ==> handler.value.Valid())
    }

    constructor (session: SessionManager)
      ensures Valid() && this.session == session && handler == None && currentRecording == None
    {
      this.session := session;
      handler, currentRecording := None, None;
      Repr := {};
    }

    /** False when the session holds no websocket URL or no token; otherwise
        a new handler is created for them and connected. */
    method InitializeStream() returns (ok: bool)
      requires Valid()
      modifies this
      ensures Valid() && fresh(Repr - old(Repr))
      ensures ok <==> Truthy(session.websocketUrl) && Truthy(session.accessToken)
      ensures !ok ==> handler == old(handler) && Repr == old(Repr)
      ensures ok ==> (
        && handler.Some? && handler.value.isConnected && !handler.value.recorder.isRecording
        && handler.value.websocketUrl == session.websocketUrl && handler.value.accessToken == session.accessToken)
      ensures currentRecording == old(currentRecording)
    {
      if !Truthy(session.websocketUrl) || !Truthy(session.accessToken) {
        return false;
      }
      var h := new StreamHandler(session.websocketUrl, session.accessToken);
      handler := Some(h);
      Repr := {h, h.recorder};
      ok := h.Connect();
    }

    /** No handler: `None`. Otherwise the handler's session result becomes
        the current recording. */
    method StartTaskRecording(stamp: string, opens: bool) returns (r: Option<string>)
      requires Valid()
      modifies this, Repr
      ensures Valid() && handler == old(handler) && Repr == old(Repr)
      ensures handler.None? ==> r == None && currentRecording == old(currentRecording)
      ensures handler.Some? ==> currentRecording == r
      ensures handler.Some? && handler.value.isConnected && opens ==> r == Some(handler.value.recorder.GenerateFilename(stamp))
      ensures handler.Some? && !handler.value.isConnected ==> r == None
      ensures handler.Some? && !opens ==> r == None
    {
      if handler.None? {
        return None;
      }
      r := handler.value.StartRecordingSession(stamp, opens);
      currentRecording := r;
    }

    /** No handler: `None`, nothing changes. Otherwise the handler's session
        stops and the current recording is cleared. */
    method StopTaskRecording() returns (r: Option<string>)
      requires Valid()
      modifies this, Repr
      ensures Valid() && handler == old(handler) && Repr == old(Repr)
      ensures old(handler).None? ==> r == None && currentRecording == old(currentRecording)
      ensures old(handler).Some? ==> currentRecording == None && !handler.value.recorder.isRecording
      ensures old(handler).Some? ==>
        r == if old(handler.value.recorder.isRecording) then old(handler.value.recorder.recordingFilename) else None
    {
      if handler.None? {
        return None;
      }
      var released;
      r, released := handler.value.StopRecordingSession();
      currentRecording := None;
    }

    /** Disconnects and drops the handler. */
    method Cleanup()
      requires Valid()
      modifies this, Repr
      ensures Valid() && handler == None && Repr == {}
      ensures currentRecording == old(currentRecording)
      ensures old(handler).Some? ==> !old(handler).value.isConnected && !old(handler).value.recorder.isRecording
    {
      if handler.Some? {
        var released := handler.value.Disconnect();
        handler := None;
        Repr := {};
      }
    }
  }
}

=== FILE: urlencode.dfy ===
/**
 * The two standard-library pieces the events channel's URL is built from:
 * `urllib.parse.quote_plus` (as `urlencode` applies it to each value) and
 * the host name `urlparse(url).hostname` extracts.
 */
module UrlEncoding {
  import opened Optional

  /** Characters `quote` never escapes. */
  predicate Unreserved(c: char) {
    ('A' <= c <= 'Z') || ('a' <= c <= 'z') || ('0' <= c <= '9') || c == '_' || c == '.' || c == '-' || c == '~'
  }

  function HexDigit(d: nat): (c: char)
    requires d < 16
    ensures Unreserved(c)
  {
    "0123456789ABCDEF"[d]
  }

  /** `%XX` with upper-case hex digits. */
  function PercentByte(b: nat): (s: string)
    requires b < 256
    ensures |s| == 3 && s[0] == '%' && Unreserved(s[1]) && Unreserved(s[2])
  {
    ['%', HexDigit(b / 16), HexDigit(b % 16)]
  }

  /** The UTF-8 encoding of one character. */
  function Utf8(c: char): (bytes: seq<nat>)
    ensures 1 <= |bytes| <= 4
    ensures forall i :: 0 <= i < |bytes| ==> bytes[i] < 256
    ensures c as int < 0x80 ==> bytes == [c as int]
  {
    var cp := c as int;
    if cp < 0x80 then [cp]
    else if cp < 0x800 then [0xC0 + cp / 64, 0x80 + cp % 64]
    else if cp < 0x10000 then [0xE0 + cp / 4096, 0x80 + (cp / 64) % 64, 0x80 + cp % 64]
    else [0xF0 + cp / 262144, 0x80 + (cp / 4096) % 64, 0x80 + (cp / 64) % 64, 0x80 + cp % 64]
  }

  function PercentAll(bytes: seq<nat>): (s: string)
    requires forall i :: 0 <= i < |bytes| ==> bytes[i] < 256
    ensures |s| == 3 * |bytes|
  {
    if bytes == [] then [] else PercentByte(bytes[0]) + PercentAll(bytes[1..])
  }

  /** How `quote_plus` writes one character. */
  function QuoteChar(c: char): string {
    if Unreserved(c) then [c] else if c == ' ' then "+" else PercentAll(Utf8(c))
  }

  /** `quote_plus(s, safe='')`. */
  function QuotePlus(s: string): string {
    if s == [] then [] else QuoteChar(s[0]) + QuotePlus(s[1..])
  }

  /** A character `quote_plus` may emit: an unreserved one, `+` or `%`. */
  predicate Encoded(c: char) {
    Unreserved(c) || c == '+' || c == '%'
  }

  lemma {:induction false} PercentAllEncoded(bytes: seq<nat>)
    requires forall i :: 0 <= i < |bytes| ==> bytes[i] < 256
    ensures forall i :: 0 <= i < |PercentAll(bytes)| ==> Encoded(PercentAll(bytes)[i])
    decreases |bytes|
  {
    if bytes != [] {
      PercentAllEncoded(bytes[1..]);
      var head, tail := PercentByte(bytes[0]), PercentAll(bytes[1..]);
      forall i | 0 <= i < |head + tail| ensures Encoded((head + tail)[i]) {
        if i >= |head| {
          assert (head + tail)[i] == tail[i - |head|];
        }
      }
    }
  }

  /** The encoded value has no separator of its own: no `&`, `=`, `#`,
      space, `?` or `/`, so each value stays inside its query parameter. */
  lemma {:induction false} QuotePlusEncoded(s: string)
    ensures forall i :: 0 <= i < |QuotePlus(s)| ==> Encoded(QuotePlus(s)[i])
    decreases |s|
  {
    if s != [] {
      QuotePlusEncoded(s[1..]);
      var head, tail := QuoteChar(s[0]), QuotePlus(s[1..]);
      if !Unreserved(s[0]) && s[0] != ' ' {
        PercentAllEncoded(Utf8(s[0]));
      }
      forall i | 0 <= i < |head + tail| ensures Encoded((head + tail)[i]) {
        if i >= |head| {
          assert (head + tail)[i] == tail[i - |head|];
        }
      }
    }
  }

  /** Text made only of unreserved characters passes through unchanged. */
  lemma {:induction false} QuotePlusKeepsUnreserved(s: string)
    requires forall i :: 0 <= i < |s| ==> Unreserved(s[i])
    ensures QuotePlus(s) == s
    decreases |s|
  {
    if s != [] {
      QuotePlusKeepsUnreserved(s[1..]);
      assert s == [s[0]] + s[1..];
    }
  }

  // ---------------------------------------------------------------------------
  // Host name

  /** The prefix of `s` before the first character in `stops`. */
  function TakeUntil(s: string, stops: set<char>): (t: string)
    ensures t <= s
    ensures forall i :: 0 <= i < |t| ==> t[i] !in stops
  {
    if s == [] || s[0] in stops then [] else [s[0]] + TakeUntil(s[1..], stops)
  }

  /** The part of `s` after its last `c` (all of `s` when there is none). */
  function AfterLast(s: string, c: char): (t: string)
    ensures |t| <= |s| && t == s[|s| - |t|..]
    ensures forall i :: 0 <= i < |t| ==> t[i] != c
    decreases |s|
  {
    if s == [] then []
    else if s[|s| - 1] == c then []
    else AfterLast(s[..|s| - 1], c) + [s[|s| - 1]]
  }

  function Lower(s: string): (t: string)
    ensures |t| == |s|
    ensures forall i :: 0 <= i < |s| ==> if 'A' <= s[i] <= 'Z' then 'a' <= t[i] <= 'z' else t[i] == s[i]
  {
    if s == [] then []
    else [if 'A' <= s[0] <= 'Z' then (s[0] as int + 32) as char else s[0]] + Lower(s[1..])
  }

  predicate SchemeChar(c: char) {
    ('A' <= c <= 'Z') || ('a' <= c <= 'z') || ('0' <= c <= '9') || c == '+' || c == '-' || c == '.'
  }

  /** What follows `scheme:` when `url` starts with a valid scheme, else all of `url`. */
  function AfterScheme(url: string): string {
    var scheme := TakeUntil(url, {':'});
    if |scheme| < |url| && |scheme| > 0 && (('A' <= scheme[0] <= 'Z') || ('a' <= scheme[0] <= 'z'))
       && forall i :: 0 <= i < |scheme| ==> SchemeChar(scheme[i])
    then url[|scheme| + 1..]
    else url
  }

  /** `urlparse(url).hostname`: the network location after `//`, without user
      information and port, in lower case; `None` when it is empty. IPv6
      literals in brackets are not modelled. */
  function Hostname(url: string): (host: Option<string>)
    ensures host.Some? ==> host.value != [] && forall i :: 0 <= i < |host.value| ==>
      host.value[i] !in {'/', '?', '#', '@', ':'}
  {
    var rest := AfterScheme(url);
    if |rest| < 2 || rest[..2] != "//" then None
    else
      var netloc := TakeUntil(rest[2..], {'/', '?', '#'});
      var user := AfterLast(netloc, '@');
      var hostPort := TakeUntil(user, {':'});
      var host := Lower(hostPort);
      assert forall i :: 0 <= i < |hostPort| ==> hostPort[i] == netloc[|netloc| - |user| + i];
      if host == [] then None else Some(host)
  }

  /** Python formats a missing host name as the text `None`. */
  function HostText(url: string): string {
    match Hostname(url)
    case Some(h) => h
    case None => "None"
  }

  // ---------------------------------------------------------------------------
  // Reading a query string back

  /** `s.split(sep)`. */
  function Split(s: string, sep: char): (parts: seq<string>)
    ensures |parts| >= 1
    decreases |s|
  {
    var head := TakeUntil(s, {sep});
    if |head| == |s| then [s] else [head] + Split(s[|head| + 1..], sep)
  }

  lemma {:induction false} TakeUntilStopsAtSeparator(a: string, rest: string, sep: char)
    requires forall i :: 0 <= i < |a| ==> a[i] != sep
    ensures TakeUntil(a + [sep] + rest, {sep}) == a
    decreases |a|
  {
    if a != [] {
      assert (a + [sep] + rest)[1..] == a[1..] + [sep] + rest;
      TakeUntilStopsAtSeparator(a[1..], rest, sep);
    }
  }

  lemma {:induction false} TakeUntilWhole(a: string, sep: char)
    requires forall i :: 0 <= i < |a| ==> a[i] != sep
    ensures TakeUntil(a, {sep}) == a
    decreases |a|
  {
    if a != [] {
      TakeUntilWhole(a[1..], sep);
    }
  }

  /** A part without the separator splits off exactly. */
  lemma SplitFirst(a: string, rest: string, sep: char)
    requires forall i :: 0 <= i < |a| ==> a[i] != sep
    ensures Split(a + [sep] + rest, sep) == [a] + Split(rest, sep)
  {
    TakeUntilStopsAtSeparator(a, rest, sep);
    assert (a + [sep] + rest)[|a| + 1..] == rest;
  }

  lemma SplitWhole(a: string, sep: char)
    requires forall i :: 0 <= i < |a| ==> a[i] != sep
    ensures Split(a, sep) == [a]
  {
    TakeUntilWhole(a, sep);
  }

  /** `sep.join(parts)`. */
  function JoinWith(parts: seq<string>, sep: char): string
    decreases |parts|
  {
    if parts == [] then []
    else if |parts| == 1 then parts[0]
    else parts[0] + [sep] + JoinWith(parts[1..], sep)
  }

  predicate Free(s: string, sep: char) {
    forall i :: 0 <= i < |s| ==> s[i] != sep
  }

  /** Joining parts that do not contain the separator, then splitting on
      it, gives the parts back. */
  lemma {:induction false} SplitJoinWith(parts: seq<string>, sep: char)
    requires parts != []
    requires forall k :: 0 <= k < |parts| ==> Free(parts[k], sep)
    ensures Split(JoinWith(parts, sep), sep) == parts
    decreases |parts|
  {
    if |parts| == 1 {
      SplitWhole(parts[0], sep);
    } else {
      SplitJoinWith(parts[1..], sep);
      SplitFirst(parts[0], JoinWith(parts[1..], sep), sep);
      assert parts == [parts[0]] + parts[1..];
    }
  }

  /** One `key=value` pair of a query, the value encoded. */
  function QueryPair(key: string, value: string): string {
    key + "=" + QuotePlus(value)
  }

  /** `urlencode(params)` for string keys and values, in the given order.
      Keys are written as given: the ones used here need no escaping. */
  function UrlEncode(params: seq<(string, string)>): string {
    JoinWith(seq(|params|, k requires 0 <= k < |params| => QueryPair(params[k].0, params[k].1)), '&')
  }

  /** A pair whose key has no `&` has none at all. */
  lemma QueryPairFree(key: string, value: string)
    requires Free(key, '&')
    ensures Free(QueryPair(key, value), '&')
  {
    QuotePlusEncoded(value);
    var q := QuotePlus(value);
    forall i | 0 <= i < |QueryPair(key, value)| ensures QueryPair(key, value)[i] != '&' {
      if i > |key| {
        assert QueryPair(key, value)[i] == q[i - |key| - 1];
        assert Encoded(q[i - |key| - 1]);
      }
    }
  }

  /** Whatever the values hold, an encoded query splits back into exactly
      one `key=value` text per parameter, in order. */
  lemma UrlEncodeReadsBack(params: seq<(string, string)>)
    requires params != []
    requires forall k :: 0 <= k < |params| ==> Free(params[k].0, '&')
    ensures Split(UrlEncode(params), '&') == seq(|params|, k requires 0 <= k < |params| => QueryPair(params[k].0, params[k].1))
  {
    var pairs := seq(|params|, k requires 0 <= k < |params| => QueryPair(params[k].0, params[k].1));
    forall k | 0 <= k < |pairs| ensures Free(pairs[k], '&') {
      QueryPairFree(params[k].0, params[k].1);
    }
    SplitJoinWith(pairs, '&');
  }
}
